=== FILE: README.md ===
# Trip planner core, in Dafny

A model of the rule-bearing core of a trip planner: a React front end over a
Django REST back end. Travellers keep trips with activities, expenses and a
packing checklist. Administrators manage accounts and watch system-wide
dashboards. The model covers:

- **Front end**:
  - the route guards that decide whether a page renders or where the browser is sent;
  - the list filters on the trip list and the admin dashboard;
  - the axios client that attaches the bearer token (section 2.1 of RFC 6750) and refreshes an expired token once;
  - the login and sign-up forms;
  - the trip workspace handlers, which submit first and reload only after the server agrees.
- **Back end**:
  - the trip, activity, expense and checklist records, with their derived fields, bounds, defaults and default orderings;
  - the toggle, statistics and dashboard actions;
  - role permissions and role-scoped user management;
  - the registration and login serializers.

Modules follow the source files. They live in `src/`:

| module | source file |
|---|---|
| `Base` | shared helpers: options and results, JSON list shapes, ASCII lower-casing and substring search, order-preserving `Filter`, `Count`, SQL-style sums |
| `Session` | the three `localStorage` keys, the window's location and notices (the `Browser` class) |
| `RouteGuards` | `frontend/src/utils/RouteGuards.js` |
| `TripList` | `frontend/src/pages/TripList.js` |
| `AdminDashboard` | `frontend/src/pages/admin/AdminDashboard.js` |
| `ApiClient` | `frontend/src/services/api.js` |
| `Login`, `Signup` | `frontend/src/pages/Login.js`, `frontend/src/pages/Signup.js` |
| `TripDetail` | `frontend/src/pages/TripDetail.js` |
| `TripModels` | `backend/trips/models.py` |
| `TripViews` | `backend/trips/views.py` |
| `UserViews` | `backend/users/views.py` |
| `UserSerializers` | `backend/users/serializers.py` |
| `Consistency` | agreement between the client's checks and routes and the server's rules |

The pure parts are functions and lemmas: guards, filters, validators,
aggregates and the interceptor's reference semantics. The code that mutates
state is written as classes with `modifies` clauses:

- React component state becomes a `Page` class whose methods take the server's outcome and `window.confirm`'s answer as arguments.
- The axios request config becomes `RequestConfig`.
- A Django row saved in place becomes `ActivityRow`, `ChecklistRow` or `AccountRow`.

Each such method is proved against a pure specification: the interceptor
against `ApiClient.Call`, the error-message loop against
`Signup.ErrorMessages`.

Representation choices:

- Money is integer cents. Calendar dates are day numbers. Creation times are timestamps in seconds.
- Requests the pages send are appended to a `sent` log. The reloads after a success are fired and not awaited, so the log is all the model records of them.

Two behaviours of the code:

- A stored access token with no usable profile (no stored user, or a stored user whose role is none of the three) is not sent to `/login`. Depending on the guard it goes to `/admin` or `/dashboard` (`RouteGuards.RolelessSessionNeverSentToLogin`). A stored user that is not JSON at all makes every guard throw instead; that state is outside the model (see "Left out").
- When the token refresh fails, the promise rejects with the refresh error, not with the original 401 (`ApiClient.FailedRefreshClears`).

Further consequences the proofs expose:

- The "Username and password are required" branch of the login serializer is unreachable through `is_valid`. The field rules reject such a request first (`UserSerializers.RequiredDetailIsUnreachable`).
- Login and the guest guard disagree on a signed-in session's home. Login sends administrators to `/dashboard` and plain users to `/trips`; the guest guard sends the same sessions to `/admin` and `/dashboard` (`Consistency.LoginRedirectDiffersFromGuestHome`).
- The sign-up form counts a password's UTF-16 code units and the server counts characters. Every password the server accepts passes the form, but three emoji pass the form and are refused by the server as too short (`Consistency.AstralPasswordPassesOnlyTheForm`).

## Model

| member | source | states |
|---|---|---|
| RouteGuards.GetUserData | frontend/src/utils/RouteGuards.js:3-14 | authenticated iff a non-empty access token is stored; `isAnyAdmin` iff admin or superadmin; at most one role flag holds; no stored user means no role flag |
| RouteGuards.AuthenticationIgnoresUser | frontend/src/utils/RouteGuards.js:5 | two storages with the same access token are equally authenticated, whatever user they hold |
| RouteGuards.GuardsFollowTable | frontend/src/utils/RouteGuards.js:16-63 | every guard on every stored state yields the entry of an independently written access table over five session kinds |
| RouteGuards.GuestRouteDecision | frontend/src/utils/RouteGuards.js:16-22 | renders iff unauthenticated; otherwise admins go to `/admin` and everyone else, role-less included, to `/dashboard` |
| RouteGuards.ProtectedRouteDecision | frontend/src/utils/RouteGuards.js:24-27 | renders iff authenticated, else goes to `/login` |
| RouteGuards.AnonymousGoesToLogin | frontend/src/utils/RouteGuards.js:24-63 | every guard except the guest one sends an unauthenticated session to `/login` |
| RouteGuards.AdminRouteDecision | frontend/src/utils/RouteGuards.js:29-36 | renders iff the session is admin or superadmin; user and role-less sessions go to `/dashboard` |
| RouteGuards.SingleRoleRouteDecisions | frontend/src/utils/RouteGuards.js:38-54 | the superadmin route renders only for superadmin and the user route only for user; every other authenticated session goes to `/admin` |
| RouteGuards.UserOrSuperAdminRouteDecision | frontend/src/utils/RouteGuards.js:56-63 | renders iff user or superadmin; admin and role-less sessions go to `/admin` |
| RouteGuards.RolelessSessionNeverSentToLogin | frontend/src/utils/RouteGuards.js:29-63 | a token without a usable profile is never sent to `/login`: `/dashboard` from the guest and admin guards, `/admin` from the other three |
| RouteGuards.AdminSessionScenario | frontend/src/utils/RouteGuards.js:16-63 | an admin is sent to `/admin` by the guest, user-only and user-or-superadmin guards and let through by the admin guard |
| TripList.LoadedTrips | frontend/src/pages/TripList.js:20 | the state is `results` when present, else the body itself; it is a non-array exactly for a paged body without `results` |
| TripList.FilteredTrips | frontend/src/pages/TripList.js:29-34 | an order-preserving subsequence; a trip is kept iff the filter is `all` or equals its status, and its lower-cased title or destination contains the lower-cased search; every copy of a kept trip is kept |
| TripList.NoFilterShowsEverything | frontend/src/pages/TripList.js:30-32 | with `all` and an empty search every trip is shown, in order |
| TripList.FilterIsIdempotent | frontend/src/pages/TripList.js:29-34 | filtering the shown list again with the same settings changes nothing |
| TripList.StatusListWithinAll | frontend/src/pages/TripList.js:29-34 | for one search, the list for any status is a subsequence of the list for `all` |
| AdminDashboard.FilteredUsers | frontend/src/pages/admin/AdminDashboard.js:145-150 | empty for a non-array state; otherwise an order-preserving subsequence keeping a user iff (username or e-mail contains the search) and (`all` or the role equals the filter), with every copy of a kept user kept |
| AdminDashboard.FilteredTrips | frontend/src/pages/admin/AdminDashboard.js:152-156 | empty for a non-array state; otherwise an order-preserving subsequence keeping a trip, every copy of it, iff title, destination or owner name contains the search; no status filter |
| AdminDashboard.MissingUsernameStillMatchesEmail | frontend/src/pages/admin/AdminDashboard.js:146-147 | a missing username never matches but the e-mail can still find the user |
| AdminDashboard.NormalizeList | frontend/src/pages/admin/AdminDashboard.js:63-65 | an array as is, else `results`, else the empty list |
| AdminDashboard.CreateUserErrorText | frontend/src/pages/admin/AdminDashboard.js:104 | never empty; the first username message when it is non-empty, the first character of a username error sent as a string; the fallback text exactly when there is no username error, an empty list, an empty first message or an empty string (or a first message that is itself the fallback text) |
| AdminDashboard.Page.UsersLoaded | frontend/src/pages/admin/AdminDashboard.js:58-75 | a reply sets the normalised list; a failure empties it and adds a notice; loading ends either way |
| AdminDashboard.Page.TripsLoaded | frontend/src/pages/admin/AdminDashboard.js:77-91 | a reply sets the normalised list; a failure empties it silently |
| AdminDashboard.Page.SubmitNewUser | frontend/src/pages/admin/AdminDashboard.js:93-106 | success hides the form, resets it to blank fields with role `user` and reloads users and dashboard; failure keeps the form and shows the error text |
| AdminDashboard.Page.DeleteUserClicked | frontend/src/pages/admin/AdminDashboard.js:108-120 | nothing is sent without confirmation; success reloads users and dashboard; failure adds a notice |
| AdminDashboard.Page.ToggleActiveClicked | frontend/src/pages/admin/AdminDashboard.js:122-131 | sends the toggle; success reloads the users only; failure adds a notice |
| AdminDashboard.Page.ChangeRoleClicked | frontend/src/pages/admin/AdminDashboard.js:133-143 | sends the new role; success reloads users and dashboard; failure adds a notice |
| ApiClient.HeaderOnlyWithToken | frontend/src/services/api.js:12-21 | the Authorization header is set, to `Bearer` and the token, only when a truthy access token is stored; otherwise the request keeps its header |
| ApiClient.NoRefreshUnless401 | frontend/src/services/api.js:23-46 | a success, a non-401 error or an error on a retried request: one send, no refresh, storage unchanged, the error passed on unchanged |
| ApiClient.RefreshThenResendOnce | frontend/src/services/api.js:27-37 | a first 401 with a good refresh stores only the new access token and resends once with it; the resend's outcome is passed on as it is |
| ApiClient.FailedRefreshClears | frontend/src/services/api.js:38-42 | a failed refresh clears all storage, goes to `/login` and rejects with the refresh error |
| ApiClient.AtMostOneRetry | frontend/src/services/api.js:27-37 | whatever the server answers, a request is sent at most twice and the token refreshed at most once; a retried request is sent exactly once |
| ApiClient.AttachToken | frontend/src/services/api.js:12-18 | the config's header afterwards is the one `WithToken` prescribes |
| ApiClient.Request | frontend/src/services/api.js:23-46 | storage, location, wire log, `_retry`, header and the settled promise afterwards are those of the reference semantics `Call` |
| ApiClient.HandleError | frontend/src/services/api.js:25-45 | the error branch's effect equals the reference semantics `OnError` |
| ApiClient.Logout | frontend/src/services/api.js:51 | all of storage is cleared |
| Login.RedirectAfterLogin | frontend/src/pages/Login.js:31-35 | `/dashboard` iff the role is admin or superadmin, `/trips` otherwise |
| Login.LoginErrorText | frontend/src/pages/Login.js:38-42 | "Invalid username or password" iff the status is 400, the generic message otherwise |
| Login.SignedInSessionIsRecognised | frontend/src/pages/Login.js:24-26 | after a login the guards see an authenticated session of the role the server sent |
| Login.Page.Submit | frontend/src/pages/Login.js:16-21 | the spinner is on and the form's credentials are sent |
| Login.Page.Completed | frontend/src/pages/Login.js:20-46 | success stores both tokens and the user and navigates by role; failure writes nothing and adds the mapped notice; the spinner is off either way |
| Base.JsLength | frontend/src/pages/Signup.js:30 | a string's JavaScript length lies between its character count and twice that, and equals it within the Basic Multilingual Plane |
| Signup.PreSubmitError | frontend/src/pages/Signup.js:25-33 | passes iff the passwords match and are at least 6 long; a mismatch is reported first, so at most one message appears |
| Signup.Changed | frontend/src/pages/Signup.js:66-71 | the named field gets the value and every other field keeps its own |
| Signup.FieldMessages | frontend/src/pages/Signup.js:52-56 | a list field gives one `key: msg` notice per element, in order; any other value gives exactly one notice |
| Signup.ErrorMessageCount | frontend/src/pages/Signup.js:50-57 | the error body yields one notice per listed message plus one per non-list field |
| Signup.ErrorMessagesAppend | frontend/src/pages/Signup.js:51-57 | the notices of a body are those of its first fields followed by those of the rest |
| Signup.CollectErrorMessages | frontend/src/pages/Signup.js:49-57 | the nested loops produce exactly `ErrorMessages` of the body |
| Signup.Page.Change | frontend/src/pages/Signup.js:66-71 | the form becomes `Changed` of the old form |
| Signup.Page.Submit | frontend/src/pages/Signup.js:22-38 | a failed check adds its one notice, sends nothing and leaves the spinner; otherwise the spinner goes on and the form is sent |
| Signup.Page.Completed | frontend/src/pages/Signup.js:37-63 | success stores the three keys and goes to `/trips`; failure adds the body's notices, or the generic one without a body; the spinner is off either way |
| TripDetail.OrEmpty | frontend/src/pages/TripDetail.js:50-52 | a missing nested list becomes the empty list, a present one is kept |
| TripDetail.PendingCount | frontend/src/pages/TripDetail.js:258 | at most the checklist's length, and zero iff every item is completed |
| TripDetail.PendingPlusCompleted | frontend/src/pages/TripDetail.js:258 | pending and completed items together make up the checklist |
| TripDetail.Page.FetchTripDetails | frontend/src/pages/TripDetail.js:42-47 | asks for the trip and its statistics |
| TripDetail.Page.TripDetailsLoaded | frontend/src/pages/TripDetail.js:42-60 | success sets the trip, its three lists (absent ones empty) and the statistics; failure leaves all loaded state as it was and adds a notice; loading ends either way |
| TripDetail.Page.AddActivity | frontend/src/pages/TripDetail.js:62-73 | success resets the form to its initial values, hides it and reloads; failure keeps the entered values and the form's visibility |
| TripDetail.Page.ToggleActivityClicked | frontend/src/pages/TripDetail.js:75-82 | sends the toggle and reloads on success; no local `completed` flag changes |
| TripDetail.Page.DeleteActivityClicked | frontend/src/pages/TripDetail.js:84-94 | nothing is sent without confirmation; success reloads; failure adds a notice |
| TripDetail.Page.AddExpense | frontend/src/pages/TripDetail.js:96-107 | as for activities, with the expense form |
| TripDetail.Page.DeleteExpenseClicked | frontend/src/pages/TripDetail.js:109-119 | nothing is sent without confirmation; success reloads; failure adds a notice |
| TripDetail.Page.AddChecklistItem | frontend/src/pages/TripDetail.js:121-132 | as for activities, with the checklist form (`general`, priority 0) |
| TripDetail.Page.ToggleChecklistClicked | frontend/src/pages/TripDetail.js:134-141 | sends the toggle and reloads on success; no local state changes |
| TripDetail.Page.DeleteChecklistClicked | frontend/src/pages/TripDetail.js:143-153 | nothing is sent without confirmation; success reloads; failure adds a notice |
| TripDetail.Page.DeleteTripClicked | frontend/src/pages/TripDetail.js:155-165 | nothing is sent without confirmation; success navigates to `/trips` instead of reloading |
| TripDetail.ToggleActivityTwice | frontend/src/pages/TripDetail.js:75-82 | two toggles send two requests and two reloads, add no notice, and change nothing else: only the request log may change |
| TripModels.ParseStatus | backend/trips/models.py:6-12 | only the five stored values are accepted, each as the status that stores it |
| TripModels.StatusRoundTrip | backend/trips/models.py:6-12 | every status survives being stored and read back |
| TripModels.NewTrip | backend/trips/models.py:14-28 | a new trip is `planning`, has no budget, zero cost and one traveller, and satisfies the field validators |
| TripModels.DurationCountsDays | backend/trips/models.py:36-38 | for a trip that does not end before it starts, `duration_days` is the number of calendar days it covers; a same-day trip lasts one day |
| TripModels.ReversedTripDuration | backend/trips/models.py:36-38 | a trip that ends before it starts covers no day, and its `duration_days` is zero or negative |
| TripModels.BudgetRemaining | backend/trips/models.py:40-44 | absent iff the budget is null or zero; otherwise remaining plus actual cost is the budget, and within a valid trip it never exceeds the budget |
| TripModels.NewActivity | backend/trips/models.py:59-72 | a new activity is not completed, of category `other`, without cost or rating, stamped `updated_at` = `created_at`, and valid |
| TripModels.NewExpense | backend/trips/models.py:90-98 | a new expense is in `USD`, linked to no activity, and valid when its amount is in range |
| TripModels.NewChecklistItem | backend/trips/models.py:107-112 | a new item is not completed, priority 0, category `general` |
| TripModels.ChecklistOrderIsTotalPreorder | backend/trips/models.py:115 | the checklist ordering is total and transitive |
| TripModels.ChecklistOrderKeys | backend/trips/models.py:115 | higher priority comes first; at equal priority a pending item comes before a completed one |
| TripModels.SortedChecklistPriorityDescends | backend/trips/models.py:115 | in default order, priorities never increase |
| TripModels.ExpenseOrderIsTotalPreorder | backend/trips/models.py:101 | the newest-first expense ordering is total and transitive, and one expense strictly precedes another iff its date is later |
| TripModels.TripOrderIsTotalPreorder | backend/trips/models.py:31 | the newest-first trip ordering is total and transitive, and one trip strictly precedes another iff it was created later |
| TripModels.ActivityOrderIsTotalPreorder | backend/trips/models.py:75 | the activity ordering by date then time is total and transitive |
| TripViews.SerializerFor | backend/trips/views.py:17-20 | the list serializer iff the action is `list` |
| TripViews.ActivityRow.ToggleComplete | backend/trips/views.py:72-77 | `completed` is negated and `updated_at` set to the time of the save; nothing else changes; the new value is returned |
| TripViews.ChecklistRow.Toggle | backend/trips/views.py:92-97 | `completed` is negated; nothing else changes; the new value is returned |
| TripViews.ToggleCompleteTwice | backend/trips/views.py:75 | toggling an activity twice restores every field except `updated_at`, which holds the second save's time |
| TripViews.ToggleChecklistTwice | backend/trips/views.py:95 | toggling a checklist item twice restores the record exactly |
| TripViews.BudgetStatusOf | backend/trips/views.py:45-49 | budget and remaining are 0 without a (non-zero) budget; otherwise the budget, and remaining is budget minus spent |
| TripViews.TripStatistics | backend/trips/views.py:30-51 | the completed counts are the numbers of completed activities and checklist items, within the totals; the expense total is 0 without expenses, else their sum, and non-negative for valid expenses |
| TripViews.DashboardOf | backend/trips/views.py:53-63 | each per-status count is the number of trips with that status, and together they stay within the total; the recent trips are the first (at most) five of the queryset |
| TripViews.RecentTripsAreNewest | backend/trips/views.py:61 | in default order no trip left out of the recent list is newer than one in it |
| UserViews.SuperAdminIsAdmin | backend/users/views.py:16-22 | the super-admin permission implies the admin permission; they differ exactly on role `admin` |
| UserViews.Refusal | backend/users/views.py:73 | anonymous requests get 401, authenticated ones without the permission 403, and the action runs iff the permission holds |
| UserViews.VisibleAccounts | backend/users/views.py:82-88 | superadmin sees every account; admin sees exactly the role-`user` accounts, in order and each as often as it occurs; any other role sees none |
| UserViews.ChangeRole | backend/users/views.py:90-101 | super-admin only; a role outside the three returns 400 and changes nothing; otherwise only the role is set |
| UserViews.ToggleActive | backend/users/views.py:103-108 | admins only, 404 on an account outside their queryset; otherwise only `is_active` flips and the new value is returned |
| UserViews.ToggleActiveTwice | backend/users/views.py:103-108 | two toggles restore the account exactly |
| UserViews.StatusCountsPartition | backend/users/views.py:142-148 | the five per-status counts add up to the number of trips |
| UserViews.ActiveTrips | backend/users/views.py:134 | trips in progress are the upcoming plus the ongoing ones |
| UserViews.TotalBudget | backend/users/views.py:202 | `Sum('budget') or 0`: the sum of the budgets with a missing budget counting 0, and 0 when no trip has a budget |
| UserViews.ActivityLogOf | backend/users/views.py:110-122 | admins only, 404 outside their queryset; at most the first ten trips, the total, and the number of upcoming or ongoing trips |
| UserViews.UserDashboard | backend/users/views.py:182-223 | 401 anonymous, 403 for admin and superadmin; otherwise each status count is the number of trips with that status, the expense and budget totals are the SQL sums (0 without trips), and the recent trips are the first (at most) five |
| UserViews.AdminDashboard | backend/users/views.py:124-180 | admins only; active users, users per role, trips per status and the last-30-days counts are the numbers of matching rows; status counts partition the trips and active trips are upcoming + ongoing; budget and expense totals are the SQL sums; at most 5 recent users and 10 recent trips |
| UserSerializers.PasswordFieldErrors | backend/users/serializers.py:42-43 | no error iff the value is present and at least 6 long; a non-empty shorter value gets the minimum-length message |
| UserSerializers.RequiredFieldErrors | backend/users/serializers.py:60-61 | no error iff the value is present and non-empty |
| UserSerializers.RegisterPasswordErrors | backend/users/serializers.py:41-52 | accepted iff both passwords are present, at least 6 long and equal; equal-length-valid but different passwords give one error on `password` |
| UserSerializers.FieldRulesComeFirst | backend/users/serializers.py:49-52 | a presence or length problem is reported instead of a mismatch |
| UserSerializers.RegisterCreateArguments | backend/users/serializers.py:54-57 | the create arguments are the validated data without `password2`, every other field unchanged |
| UserSerializers.UserCreatePasswordErrors | backend/users/serializers.py:25-26 | the admin create form accepts a password iff it is present and at least 6 long |
| UserSerializers.ValidateLogin | backend/users/serializers.py:63-94 | succeeds iff both fields are non-empty, the user exists, is active and the password matches, returning the tokens and the user with role; "required" iff a field is empty; "disabled" iff the active check fails |
| UserSerializers.UnknownUserLooksLikeWrongPassword | backend/users/serializers.py:70-79 | an unknown user and a wrong password get the identical answer |
| UserSerializers.DisabledIgnoresPassword | backend/users/serializers.py:75-79 | for a disabled account the answer does not depend on the password |
| UserSerializers.LoginIsValid | backend/users/serializers.py:59-68 | the full validation succeeds exactly when `validate` does, with its payload |
| UserSerializers.RequiredDetailIsUnreachable | backend/users/serializers.py:67-68 | the "required" detail never comes out of the full validation |
| UserSerializers.TotalExpenses | backend/users/serializers.py:20-23 | 0 for a user without trips, else the sum of actual costs; non-negative for valid trips |
| Consistency.SignupCheckCoversRegistration | frontend/src/pages/Signup.js:25-33 | every pair registration accepts passes the form's check; within the Basic Multilingual Plane the two checks agree |
| Consistency.AstralPasswordPassesOnlyTheForm | frontend/src/pages/Signup.js:30 | three emoji pass the form but get the minimum-length error on both server fields |
| Consistency.RouteGuardsMatchPermissions | frontend/src/utils/RouteGuards.js:29-45 | a signed-in session passes the admin and super-admin guards exactly when the server's permission classes grant its role |
| Consistency.LoginRedirectDiffersFromGuestHome | frontend/src/pages/Login.js:31-35 | for every signed-in session, login's target differs from where the guest guard sends it: `/dashboard` vs `/admin` for administrators, `/trips` vs `/dashboard` for users |

## Left out

- Rendering: JSX, styling, icons, tabs, hover handlers, success toasts and console logging have no statable behaviour beyond the notices modelled.
- Transport and browser APIs: axios, `localStorage`, `window.location`, `window.confirm` and the clock are parameters or fields. A scripted far end stands in for the network; a script that runs out answers with no response or a failed refresh.
- Concurrency: the `Promise.all` in the trip workspace is one reply carrying both bodies, and either failing is a failure. The fire-and-forget reloads after a success are logged requests.
- Lower-casing is ASCII only. JavaScript's `toLowerCase` also folds other scripts.
- `TripList.FilteredTrips` takes a list. The page would throw when its state is a non-array (a paged body without `results`) or a trip lacks a title or destination.
- Floating point: `float()` conversions and `toFixed` are replaced by exact integer cents.
- Group-by aggregates are not modelled: `expenses_by_category`, `top_destinations`, `favorite_destinations`, and the personal dashboard's `upcoming_trips` sorted by start date.
- Querysets are inputs already in the order the code requests. The database, pagination, `select_related` and the search and filter backends are not modelled.
- `get_object` on a missing primary key (404 for every requester) is not modelled. The actions receive the row that was found.
- JWT handling: token minting (`RefreshToken.for_user`), the refresh endpoint and blacklisting are parameters or absent. `check_password` is modelled as equality with the stored credential.
- DRF's whitespace trimming of `CharField` values is not modelled. Neither are the registration serializer's other field rules (username uniqueness, e-mail format).
- Error bodies are modelled as an ordered list of fields, each a list of messages or a string. Other JSON shapes are left out.
- The order of a NULL activity time is taken as first (ascending NULLs first). The database backend decides this.
- A refresh reply without an `access` field is not modelled. The client would store the text `undefined`.
- Out of the core: the login form's `handleChange`, the trip create and edit forms, the read-only dashboard pages, the route table, logout on the server, the health and core views. The route table in `App.js` wraps no page in a guard and has no `/login` or `/admin` route, so the `RouteGuards` lemmas and the `Consistency` lemmas about guards are properties of the guard components, not of the app as it is routed.
- RouteGuards.GetUserData: the stored user is a parsed profile or absent. A stored text that is not JSON (such as `undefined`, which login stores for a reply without `user`) makes `JSON.parse` throw and every guard crash; the model has no such state.
- AdminDashboard.CreateUserErrorText: for a username error sent as a string, the notice is its first character, where JavaScript's `[0]` takes one UTF-16 code unit. For a string starting outside the Basic Multilingual Plane the page shows a lone high surrogate, which a Dafny string cannot hold.
- Trip date order: no model validator, serializer or form input keeps `end_date` from preceding `start_date`. The model admits such trips and states their duration (`TripModels.ReversedTripDuration`) instead of rejecting them.
- Consistency.SignupCheckCoversRegistration: the server-side password rules are compared for the two password fields only, since the other registration fields have no client-side check.

=== FILE: src/admin_dashboard.dfy ===
/** The admin dashboard page: loading the user and trip lists, the search and
    role filters over them, and the create / delete / toggle / change-role
    handlers (frontend/src/pages/admin/AdminDashboard.js). */
module AdminDashboard {
  import opened Base

  /** A user as listed by the management endpoint; any field may be missing. */
  datatype UserRow = UserRow(id: int, username: Option<string>, email: Option<string>, role: Option<string>)

  datatype Owner = Owner(username: Option<string>)

  /** A trip as listed by the trips endpoint; `user` is the owner, if sent. */
  datatype TripRow = TripRow(id: int, title: Option<string>, destination: Option<string>, user: Option<Owner>)

  /** The `newUser` form. */
  datatype NewUser = NewUser(username: string, email: string, password: string, firstName: string, lastName: string, role: string)

  const BlankNewUser := NewUser("", "", "", "", "", "user")

  /** The requests the page sends. */
  datatype Request =
    | GetDashboard
    | ListUsers
    | ListTrips
    | CreateUser(form: NewUser)
    | DeleteUser(userId: int)
    | ToggleActive(userId: int)
    | ChangeRole(userId: int, role: string)

  /** `x?.toLowerCase().includes(search.toLowerCase())`: a missing field never matches. */
  predicate FieldMatches(field: Option<string>, search: string)
  {
    field.Some? && Matches(field.value, search)
  }

  predicate KeepUser(u: UserRow, search: string, userFilter: string)
  {
    (FieldMatches(u.username, search) || FieldMatches(u.email, search))
    && (userFilter == "all" || u.role == Some(userFilter))
  }

  predicate KeepTrip(t: TripRow, search: string)
  {
    FieldMatches(t.title, search) || FieldMatches(t.destination, search)
    || (t.user.Some? && FieldMatches(t.user.value.username, search))
  }

  /** `filteredUsers`: empty when the state is not an array. */
  function FilteredUsers(users: JsonList<UserRow>, search: string, userFilter: string): (r: seq<UserRow>)
    ensures users.NonArray? ==> r == []
    ensures users.Array? ==> IsSubsequence(r, users.items)
    ensures users.Array? ==> forall i :: 0 <= i < |users.items| ==>
              (users.items[i] in r <==> KeepUser(users.items[i], search, userFilter))
    ensures users.Array? ==> forall u :: multiset(r)[u] == (if KeepUser(u, search, userFilter) then multiset(users.items)[u] else 0)
  {
    match users
    case NonArray => []
    case Array(items) =>
      FilterMultiplicity(items, (u: UserRow) => KeepUser(u, search, userFilter));
      Filter(items, (u: UserRow) => KeepUser(u, search, userFilter))
  }

  /** `filteredTrips`: search on title, destination or owner name; no status or
      role filter. */
  function FilteredTrips(trips: JsonList<TripRow>, search: string): (r: seq<TripRow>)
    ensures trips.NonArray? ==> r == []
    ensures trips.Array? ==> IsSubsequence(r, trips.items)
    ensures trips.Array? ==> forall i :: 0 <= i < |trips.items| ==>
              (trips.items[i] in r <==> KeepTrip(trips.items[i], search))
    ensures trips.Array? ==> forall t :: multiset(r)[t] == (if KeepTrip(t, search) then multiset(trips.items)[t] else 0)
  {
    match trips
    case NonArray => []
    case Array(items) =>
      FilterMultiplicity(items, (t: TripRow) => KeepTrip(t, search));
      Filter(items, (t: TripRow) => KeepTrip(t, search))
  }

  /** A user whose username is missing can still be found by e-mail. */
  lemma MissingUsernameStillMatchesEmail(u: UserRow, search: string)
    requires u.username.None? && u.email.Some? && Matches(u.email.value, search)
    ensures KeepUser(u, search, "all")
    ensures !FieldMatches(u.username, search)
  {
  }

  /** `Array.isArray(data) ? data : (data.results || [])`. */
  function NormalizeList<T>(data: Payload<T>): (r: seq<T>)
    ensures data.Bare? ==> r == data.items
    ensures data.Paged? && data.results.Some? ==> r == data.results.value
    ensures data == Paged(None) ==> r == []
  {
    match data
    case Bare(items) => items
    case Paged(Some(results)) => results
    case Paged(None) => []
  }

  /** The create-user failure notice:
      `error.response?.data?.username?.[0] || 'Failed to create user'`.
      Indexing a string field yields its first character. */
  function CreateUserErrorText(username: Option<ErrorValue>): (r: string)
    ensures r != ""
    ensures (username.Some? && username.value.Messages? && |username.value.msgs| > 0 && username.value.msgs[0] != "")
            ==> r == username.value.msgs[0]
    ensures (username.Some? && username.value.Text? && username.value.text != "")
            ==> r == username.value.text[..1]
    ensures r == "Failed to create user" <==>
      || username.None?
      || (username.value.Messages? && (|username.value.msgs| == 0 || username.value.msgs[0] in {"", "Failed to create user"}))
      || (username.value.Text? && username.value.text == "")
  {
    var first :=
      match username
      case Some(Messages(msgs)) => if |msgs| > 0 then msgs[0] else ""
      case Some(Text(text)) => if |text| > 0 then text[..1] else ""
      case None => "";
    if first != "" then first else "Failed to create user"
  }

  /** The state of the page component. Server replies are method arguments;
      `window.confirm` is the `confirmed` argument. */
  class Page {
    var users: JsonList<UserRow>
    var trips: JsonList<TripRow>
    var loading: bool
    var showUserForm: bool
    var newUser: NewUser
    var sent: seq<Request>
    var notices: seq<string>

    constructor ()
      ensures users == Array([]) && trips == Array([]) && loading
      ensures !showUserForm && newUser == BlankNewUser && sent == [] && notices == []
    {
      users := Array([]);
      trips := Array([]);
      loading := true;
      showUserForm := false;
      newUser := BlankNewUser;
      sent := [];
      notices := [];
    }

    /** The reply to `fetchUsers`; a failure empties the list. */
    method UsersLoaded(reply: Option<Payload<UserRow>>)
      modifies this
      ensures users == (if reply.Some? then Array(NormalizeList(reply.value)) else Array([]))
      ensures !loading
      ensures notices == old(notices) + (if reply.Some? then [] else ["Failed to load users"])
      ensures trips == old(trips) && showUserForm == old(showUserForm) && newUser == old(newUser) && sent == old(sent)
    {
      if reply.Some? {
        users := Array(NormalizeList(reply.value));
        loading := false;
      } else {
        notices := notices + ["Failed to load users"];
        users := Array([]);
        loading := false;
      }
    }

    /** The reply to `fetchAllTrips`; a failure empties the list, silently. */
    method TripsLoaded(reply: Option<Payload<TripRow>>)
      modifies this`trips
      ensures trips == (if reply.Some? then Array(NormalizeList(reply.value)) else Array([]))
    {
      if reply.Some? {
        trips := Array(NormalizeList(reply.value));
      } else {
        trips := Array([]);
      }
    }

    /** `handleCreateUser`: posts the form; on success hides and resets it and
        asks for fresh user and dashboard data. */
    method SubmitNewUser(ok: bool, usernameError: Option<ErrorValue>)
      modifies this
      ensures ok ==> !showUserForm && newUser == BlankNewUser
      ensures ok ==> sent == old(sent) + [CreateUser(old(newUser)), ListUsers, GetDashboard]
      ensures ok ==> notices == old(notices)
      ensures !ok ==> showUserForm == old(showUserForm) && newUser == old(newUser)
      ensures !ok ==> sent == old(sent) + [CreateUser(old(newUser))]
      ensures !ok ==> notices == old(notices) + [CreateUserErrorText(usernameError)]
      ensures users == old(users) && trips == old(trips) && loading == old(loading)
    {
      sent := sent + [CreateUser(newUser)];
      if ok {
        showUserForm := false;
        newUser := BlankNewUser;
        sent := sent + [ListUsers, GetDashboard];
      } else {
        notices := notices + [CreateUserErrorText(usernameError)];
      }
    }

    /** `handleDeleteUser`: nothing is sent unless the user confirms. */
    method DeleteUserClicked(userId: int, confirmed: bool, ok: bool)
      modifies this`sent, this`notices
      ensures !confirmed ==> sent == old(sent) && notices == old(notices)
      ensures confirmed && ok ==> sent == old(sent) + [DeleteUser(userId), ListUsers, GetDashboard] && notices == old(notices)
      ensures confirmed && !ok ==> sent == old(sent) + [DeleteUser(userId)] && notices == old(notices) + ["Failed to delete user"]
    {
      if !confirmed {
        return;
      }
      sent := sent + [DeleteUser(userId)];
      if ok {
        sent := sent + [ListUsers, GetDashboard];
      } else {
        notices := notices + ["Failed to delete user"];
      }
    }

    /** `handleToggleActive`: on success only the user list is reloaded. */
    method ToggleActiveClicked(userId: int, ok: bool)
      modifies this`sent, this`notices
      ensures ok ==> sent == old(sent) + [ToggleActive(userId), ListUsers] && notices == old(notices)
      ensures !ok ==> sent == old(sent) + [ToggleActive(userId)] && notices == old(notices) + ["Failed to update user status"]
    {
      sent := sent + [ToggleActive(userId)];
      if ok {
        sent := sent + [ListUsers];
      } else {
        notices := notices + ["Failed to update user status"];
      }
    }

    /** `handleChangeRole`: on success the users and the dashboard are reloaded. */
    method ChangeRoleClicked(userId: int, role: string, ok: bool)
      modifies this`sent, this`notices
      ensures ok ==> sent == old(sent) + [ChangeRole(userId, role), ListUsers, GetDashboard] && notices == old(notices)
      ensures !ok ==> sent == old(sent) + [ChangeRole(userId, role)] && notices == old(notices) + ["Failed to update user role"]
    {
      sent := sent + [ChangeRole(userId, role)];
      if ok {
        sent := sent + [ListUsers, GetDashboard];
      } else {
        notices := notices + ["Failed to update user role"];
      }
    }
  }
}

=== FILE: src/api_client.dfy ===
/** The axios instance of the front end: the request interceptor that attaches
    the bearer token (section 2.1 of RFC 6750), the response interceptor that
    refreshes an expired access token and resends the request once, and
    `authAPI.logout` (frontend/src/services/api.js). */
module ApiClient {
  import opened Base
  import opened Session

  /** The server's answer to one API call: a 2xx response, an HTTP error
      status, or no response at all. */
  datatype Reply = Success(data: string) | HttpError(status: int) | NoResponse

  /** The token endpoint's answer to a refresh. */
  datatype RefreshReply = Issued(access: string) | RefreshFailed(status: Option<int>)

  /** What the client puts on the wire. The refresh goes through plain axios,
      so it carries no Authorization header. */
  datatype Wire = ApiCall(authorization: Option<string>) | RefreshCall(refresh: Option<string>)

  /** How the promise handed back to the caller settles. */
  datatype Settled = Resolved(data: string) | Rejected(error: Reply) | RefreshRejected(refreshError: RefreshReply)

  function Bearer(token: string): string
  {
    "Bearer " + token
  }

  /** The request interceptor on the Authorization header. */
  function WithToken(s: Storage, authorization: Option<string>): Option<string>
  {
    if Truthy(s.accessToken) then Some(Bearer(s.accessToken.value)) else authorization
  }

  /** The scripted replies of the far end, consumed in order; an exhausted
      script answers with no response. */
  function Next(replies: seq<Reply>): Reply
  {
    if replies == [] then NoResponse else replies[0]
  }

  function NextRefresh(replies: seq<RefreshReply>): RefreshReply
  {
    if replies == [] then RefreshFailed(None) else replies[0]
  }

  function Drop<T>(xs: seq<T>, n: nat): seq<T>
  {
    if n <= |xs| then xs[n..] else []
  }

  // ------------------------------------------------------------ reference semantics

  /** The effect of one call through the instance: the storage afterwards,
      whether the window was sent to the login page, what went on the wire,
      how the promise settled, the request's `_retry` flag and header
      afterwards, and how many scripted replies were used. */
  datatype Run = Run(
    storage: Storage,
    toLogin: bool,
    wire: seq<Wire>,
    settled: Settled,
    retry: bool,
    authorization: Option<string>,
    repliesUsed: nat,
    refreshesUsed: nat)

  /** `api(config)`: interceptor, send, and the error handler on a failure. */
  function Call(s: Storage, authorization: Option<string>, retry: bool,
                replies: seq<Reply>, refreshes: seq<RefreshReply>): Run
    decreases if retry then 0 else 1, 1
  {
    var header := WithToken(s, authorization);
    var reply := Next(replies);
    if reply.Success? then
      Run(s, false, [ApiCall(header)], Resolved(reply.data), retry, header, 1, 0)
    else
      var r := OnError(s, header, retry, reply, Drop(replies, 1), refreshes);
      r.(wire := [ApiCall(header)] + r.wire, repliesUsed := r.repliesUsed + 1)
  }

  /** The response interceptor's error branch. */
  function OnError(s: Storage, authorization: Option<string>, retry: bool, error: Reply,
                   replies: seq<Reply>, refreshes: seq<RefreshReply>): Run
    decreases if retry then 0 else 1, 0
  {
    if error == HttpError(401) && !retry then
      match NextRefresh(refreshes)
      case Issued(access) =>
        var r := Call(s.(accessToken := Some(access)), Some(Bearer(access)), true, replies, Drop(refreshes, 1));
        r.(wire := [RefreshCall(s.refreshToken)] + r.wire, refreshesUsed := r.refreshesUsed + 1)
      case RefreshFailed(status) =>
        Run(Cleared, true, [RefreshCall(s.refreshToken)], RefreshRejected(RefreshFailed(status)), true, authorization, 0, 1)
    else
      Run(s, false, [], Rejected(error), retry, authorization, 0, 0)
  }

  predicate IsApiCall(w: Wire)
  {
    w.ApiCall?
  }

  predicate IsRefreshCall(w: Wire)
  {
    w.RefreshCall?
  }

  function ApiCalls(wire: seq<Wire>): nat
  {
    Count(wire, IsApiCall)
  }

  function RefreshCalls(wire: seq<Wire>): nat
  {
    Count(wire, IsRefreshCall)
  }

  // ------------------------------------------------------------ properties

  /** The header is set only when a truthy access token is stored, and then it
      carries that token; otherwise the request keeps the header it had. */
  lemma HeaderOnlyWithToken(s: Storage, authorization: Option<string>)
    ensures Truthy(s.accessToken) ==> WithToken(s, authorization) == Some("Bearer " + s.accessToken.value)
    ensures !Truthy(s.accessToken) ==> WithToken(s, authorization) == authorization
    ensures authorization.None? ==> (WithToken(s, authorization).Some? <==> Truthy(s.accessToken))
  {
  }

  /** A success, a non-401 error, or any error on a request already retried:
      one send, no refresh, nothing stored, the error passed on unchanged. */
  lemma NoRefreshUnless401(s: Storage, authorization: Option<string>, retry: bool,
                           replies: seq<Reply>, refreshes: seq<RefreshReply>)
    requires Next(replies) != HttpError(401) || retry
    ensures var r := Call(s, authorization, retry, replies, refreshes);
      && r.wire == [ApiCall(WithToken(s, authorization))]
      && r.storage == s && !r.toLogin && r.retry == retry
      && r.settled == (if Next(replies).Success? then Resolved(Next(replies).data) else Rejected(Next(replies)))
  {
  }

  /** A 401 and a successful refresh: the new access token (and nothing else) is
      stored, the request is resent once with it, and the resend's outcome is
      passed on unchanged, even if it is another 401. */
  lemma RefreshThenResendOnce(s: Storage, authorization: Option<string>,
                              replies: seq<Reply>, refreshes: seq<RefreshReply>)
    requires Next(replies) == HttpError(401) && NextRefresh(refreshes).Issued?
    ensures var access := NextRefresh(refreshes).access;
      var second := Next(Drop(replies, 1));
      var r := Call(s, authorization, false, replies, refreshes);
      && r.storage == s.(accessToken := Some(access))
      && r.storage.refreshToken == s.refreshToken && r.storage.user == s.user
      && r.wire == [ApiCall(WithToken(s, authorization)), RefreshCall(s.refreshToken), ApiCall(Some(Bearer(access)))]
      && r.retry && !r.toLogin
      && r.settled == (if second.Success? then Resolved(second.data) else Rejected(second))
  {
    var access := NextRefresh(refreshes).access;
    var s' := s.(accessToken := Some(access));
    assert WithToken(s', Some(Bearer(access))) == Some(Bearer(access));
    NoRefreshUnless401(s', Some(Bearer(access)), true, Drop(replies, 1), Drop(refreshes, 1));
  }

  /** A 401 and a failed refresh: storage is cleared, the window goes to the
      login page, and the refresh error (not the 401) is passed on. */
  lemma FailedRefreshClears(s: Storage, authorization: Option<string>,
                            replies: seq<Reply>, refreshes: seq<RefreshReply>)
    requires Next(replies) == HttpError(401) && NextRefresh(refreshes).RefreshFailed?
    ensures var r := Call(s, authorization, false, replies, refreshes);
      && r.storage == Cleared && r.toLogin && r.retry
      && r.wire == [ApiCall(WithToken(s, authorization)), RefreshCall(s.refreshToken)]
      && r.settled == RefreshRejected(NextRefresh(refreshes))
  {
  }

  /** Whatever the server does, one call sends the request at most twice and
      refreshes at most once. */
  lemma {:induction false} AtMostOneRetry(s: Storage, authorization: Option<string>, retry: bool,
                                          replies: seq<Reply>, refreshes: seq<RefreshReply>)
    ensures ApiCalls(Call(s, authorization, retry, replies, refreshes).wire) <= 2
    ensures RefreshCalls(Call(s, authorization, retry, replies, refreshes).wire) <= 1
    ensures retry ==> ApiCalls(Call(s, authorization, retry, replies, refreshes).wire) == 1
  {
    var header := WithToken(s, authorization);
    var r := Call(s, authorization, retry, replies, refreshes);
    if Next(replies) != HttpError(401) || retry {
      NoRefreshUnless401(s, authorization, retry, replies, refreshes);
      CountCons(ApiCall(header), [], IsApiCall);
      CountCons(ApiCall(header), [], IsRefreshCall);
    } else if NextRefresh(refreshes).Issued? {
      RefreshThenResendOnce(s, authorization, replies, refreshes);
      var access := NextRefresh(refreshes).access;
      var last := [ApiCall(Some(Bearer(access)))];
      CountCons(ApiCall(Some(Bearer(access))), [], IsApiCall);
      CountCons(ApiCall(Some(Bearer(access))), [], IsRefreshCall);
      CountCons(RefreshCall(s.refreshToken), last, IsApiCall);
      CountCons(RefreshCall(s.refreshToken), last, IsRefreshCall);
      CountCons(ApiCall(header), [RefreshCall(s.refreshToken)] + last, IsApiCall);
      CountCons(ApiCall(header), [RefreshCall(s.refreshToken)] + last, IsRefreshCall);
    } else {
      FailedRefreshClears(s, authorization, replies, refreshes);
      CountCons(RefreshCall(s.refreshToken), [], IsApiCall);
      CountCons(RefreshCall(s.refreshToken), [], IsRefreshCall);
      CountCons(ApiCall(header), [RefreshCall(s.refreshToken)], IsApiCall);
      CountCons(ApiCall(header), [RefreshCall(s.refreshToken)], IsRefreshCall);
    }
  }

  // ------------------------------------------------------------ the instance

  /** The far end as the client sees it: scripted replies and the log of what
      was sent. */
  class Server {
    var replies: seq<Reply>
    var refreshReplies: seq<RefreshReply>
    var wire: seq<Wire>

    constructor (replies: seq<Reply>, refreshReplies: seq<RefreshReply>)
      ensures this.replies == replies && this.refreshReplies == refreshReplies && wire == []
    {
      this.replies := replies;
      this.refreshReplies := refreshReplies;
      wire := [];
    }

    method Send(authorization: Option<string>) returns (reply: Reply)
      modifies this
      ensures reply == Next(old(replies)) && replies == Drop(old(replies), 1)
      ensures wire == old(wire) + [ApiCall(authorization)] && refreshReplies == old(refreshReplies)
    {
      wire := wire + [ApiCall(authorization)];
      if replies == [] {
        reply := NoResponse;
      } else {
        reply := replies[0];
        replies := replies[1..];
      }
    }

    method Refresh(refresh: Option<string>) returns (reply: RefreshReply)
      modifies this
      ensures reply == NextRefresh(old(refreshReplies)) && refreshReplies == Drop(old(refreshReplies), 1)
      ensures wire == old(wire) + [RefreshCall(refresh)] && replies == old(replies)
    {
      wire := wire + [RefreshCall(refresh)];
      if refreshReplies == [] {
        reply := RefreshFailed(None);
      } else {
        reply := refreshReplies[0];
        refreshReplies := refreshReplies[1..];
      }
    }
  }

  /** A request in flight: axios' config object, which the interceptors mutate. */
  class RequestConfig {
    var authorization: Option<string>
    var retry: bool

    constructor ()
      ensures authorization.None? && !retry
    {
      authorization := None;
      retry := false;
    }
  }

  /** The request interceptor. */
  method AttachToken(b: Browser, config: RequestConfig)
    modifies config`authorization
    ensures config.authorization == WithToken(b.storage, old(config.authorization))
  {
    var token := b.storage.accessToken;
    if token.Some? && token.value != "" {
      config.authorization := Some(Bearer(token.value));
    }
  }

  /** `api(config)`. */
  method Request(b: Browser, net: Server, config: RequestConfig) returns (settled: Settled)
    modifies b, net, config
    decreases if config.retry then 0 else 1, 1
    ensures var r := Call(old(b.storage), old(config.authorization), old(config.retry), old(net.replies), old(net.refreshReplies));
      && b.storage == r.storage
      && b.location == (if r.toLogin then LoginPath else old(b.location))
      && b.notices == old(b.notices)
      && net.wire == old(net.wire) + r.wire
      && net.replies == Drop(old(net.replies), r.repliesUsed)
      && net.refreshReplies == Drop(old(net.refreshReplies), r.refreshesUsed)
      && settled == r.settled
      && config.retry == r.retry && config.authorization == r.authorization
  {
    AttachToken(b, config);
    var reply := net.Send(config.authorization);
    if reply.Success? {
      settled := Resolved(reply.data);
    } else {
      settled := HandleError(b, net, config, reply);
    }
  }

  /** The response interceptor's error handler. */
  method HandleError(b: Browser, net: Server, config: RequestConfig, error: Reply) returns (settled: Settled)
    modifies b, net, config
    decreases if config.retry then 0 else 1, 0
    ensures var r := OnError(old(b.storage), old(config.authorization), old(config.retry), error, old(net.replies), old(net.refreshReplies));
      && b.storage == r.storage
      && b.location == (if r.toLogin then LoginPath else old(b.location))
      && b.notices == old(b.notices)
      && net.wire == old(net.wire) + r.wire
      && net.replies == Drop(old(net.replies), r.repliesUsed)
      && net.refreshReplies == Drop(old(net.refreshReplies), r.refreshesUsed)
      && settled == r.settled
      && config.retry == r.retry && config.authorization == r.authorization
  {
    if error == HttpError(401) && !config.retry {
      config.retry := true;
      var reply := net.Refresh(b.storage.refreshToken);
      match reply
      case Issued(access) =>
        b.storage := b.storage.(accessToken := Some(access));
        config.authorization := Some(Bearer(access));
        settled := Request(b, net, config);
      case RefreshFailed(_) =>
        b.storage := Cleared;
        b.location := LoginPath;
        settled := RefreshRejected(reply);
    } else {
      settled := Rejected(error);
    }
  }

  /** `authAPI.logout`. */
  method Logout(b: Browser)
    modifies b`storage
    ensures b.storage == Cleared
  {
    b.storage := Cleared;
  }
}

=== FILE: src/base.dfy ===
/** Building blocks shared by every part of the model: optional values, results,
    ASCII case folding and substring search, and order-preserving filtering over
    sequences (JavaScript's `Array.prototype.filter`, Django's `.filter(...)` on an
    ordered queryset). */
module Base {

  datatype Option<T> = None | Some(value: T)

  datatype Result<T, E> = Ok(value: T) | Err(error: E)

  /** JavaScript's `length` of a string: the number of UTF-16 code units, two
      for a character outside the Basic Multilingual Plane. */
  function JsLength(s: string): (n: nat)
    ensures |s| <= n <= 2 * |s|
    ensures (forall i :: 0 <= i < |s| ==> s[i] as int <= 0xFFFF) ==> n == |s|
  {
    if s == [] then 0
    else (if s[0] as int > 0xFFFF then 2 else 1) + JsLength(s[1..])
  }

  /** A list-shaped JSON payload as the REST API can send it: a bare array, or a
      paginated object whose `results` member may be missing. */
  datatype Payload<T> = Bare(items: seq<T>) | Paged(results: Option<seq<T>>)

  /** What a piece of React state holds when it is meant to be an array: an array,
      or some other JSON value. */
  datatype JsonList<T> = Array(items: seq<T>) | NonArray

  /** One field of an error body: Django REST framework sends a list of
      messages, but any JSON value can arrive. */
  datatype ErrorValue = Messages(msgs: seq<string>) | Text(text: string)

  // ---------------------------------------------------------------- text

  /** `toLowerCase` restricted to ASCII letters. */
  function LowerChar(c: char): char
  {
    if 'A' <= c <= 'Z' then (c as int + 32) as char else c
  }

  function Lower(s: string): (r: string)
    ensures |r| == |s|
    ensures forall i :: 0 <= i < |s| ==> r[i] == LowerChar(s[i])
  {
    if s == [] then [] else [LowerChar(s[0])] + Lower(s[1..])
  }

  /** `part` occurs in `text` starting at position `i`. */
  predicate OccursAt(text: string, part: string, i: int)
  {
    0 <= i <= |text| - |part| && text[i..i + |part|] == part
  }

  /** `text.includes(part)`: `part` occurs somewhere in `text`. */
  predicate Contains(text: string, part: string)
  {
    exists i :: 0 <= i <= |text| && OccursAt(text, part, i)
  }

  /** Case-insensitive substring test used by every search box:
      `text.toLowerCase().includes(search.toLowerCase())`. */
  predicate Matches(text: string, search: string)
  {
    Contains(Lower(text), Lower(search))
  }

  /** Every text matches the empty search. */
  lemma EmptySearchMatches(text: string)
    ensures Matches(text, "")
  {
    assert OccursAt(Lower(text), Lower(""), 0);
  }

  /** JavaScript truthiness of an optional string: present and non-empty. */
  predicate Truthy(s: Option<string>)
  {
    s.Some? && s.value != ""
  }

  // ---------------------------------------------------------------- sequences

  /** `sub` can be obtained from `xs` by deleting elements, keeping the order. */
  predicate IsSubsequence<T(==)>(sub: seq<T>, xs: seq<T>)
    decreases |xs|
  {
    if sub == [] then true
    else if xs == [] then false
    else if sub[0] == xs[0] then IsSubsequence(sub[1..], xs[1..])
    else IsSubsequence(sub, xs[1..])
  }

  /** Order-preserving filter: the elements of `xs` that `keep` accepts. */
  function Filter<T(==)>(xs: seq<T>, keep: T -> bool): (r: seq<T>)
    ensures |r| <= |xs|
    ensures forall i :: 0 <= i < |r| ==> r[i] in xs && keep(r[i])
    ensures forall i :: 0 <= i < |xs| && keep(xs[i]) ==> xs[i] in r
    ensures IsSubsequence(r, xs)
  {
    if xs == [] then []
    else if keep(xs[0]) then [xs[0]] + Filter(xs[1..], keep)
    else Filter(xs[1..], keep)
  }

  /** Number of elements `keep` accepts (`.filter(...).count()`, `.filter(...).length`). */
  function Count<T(==)>(xs: seq<T>, keep: T -> bool): nat
  {
    |Filter(xs, keep)|
  }

  lemma CountCons<T>(x: T, xs: seq<T>, keep: T -> bool)
    ensures Count([x] + xs, keep) == (if keep(x) then 1 else 0) + Count(xs, keep)
  {
    assert ([x] + xs)[1..] == xs;
  }

  /** Count of a non-empty sequence: its head, then its tail. */
  lemma CountUnfold<T>(xs: seq<T>, keep: T -> bool)
    requires xs != []
    ensures Count(xs, keep) == (if keep(xs[0]) then 1 else 0) + Count(xs[1..], keep)
  {
  }

  /** The filter keeps every copy of an accepted element and none of a
      rejected one. */
  lemma {:induction false} FilterMultiplicity<T(!new)>(xs: seq<T>, keep: T -> bool)
    ensures forall x :: multiset(Filter(xs, keep))[x] == (if keep(x) then multiset(xs)[x] else 0)
  {
    if xs != [] {
      FilterMultiplicity(xs[1..], keep);
      assert xs == [xs[0]] + xs[1..];
    }
  }

  /** A filter that accepts every element returns its input unchanged. */
  lemma {:induction false} FilterKeepsAll<T>(xs: seq<T>, keep: T -> bool)
    requires forall x :: x in xs ==> keep(x)
    ensures Filter(xs, keep) == xs
  {
    if xs != [] {
      FilterKeepsAll(xs[1..], keep);
    }
  }

  /** Filtering twice with the same predicate is filtering once. */
  lemma FilterIdempotent<T>(xs: seq<T>, keep: T -> bool)
    ensures Filter(Filter(xs, keep), keep) == Filter(xs, keep)
  {
    FilterKeepsAll(Filter(xs, keep), keep);
  }

  /** A stronger predicate selects an order-preserving subsequence of what a
      weaker one selects. */
  lemma {:induction false} FilterMonotone<T>(xs: seq<T>, strong: T -> bool, weak: T -> bool)
    requires forall x :: x in xs && strong(x) ==> weak(x)
    ensures IsSubsequence(Filter(xs, strong), Filter(xs, weak))
  {
    if xs != [] {
      FilterMonotone(xs[1..], strong, weak);
    }
  }

  /** A predicate and its complement together count every element. */
  lemma {:induction false} CountSplit<T>(xs: seq<T>, keep: T -> bool, reject: T -> bool)
    requires forall x :: reject(x) <==> !keep(x)
    ensures Count(xs, keep) + Count(xs, reject) == |xs|
  {
    if xs != [] {
      CountSplit(xs[1..], keep, reject);
    }
  }

  /** Two mutually exclusive predicates: the elements accepted by either are
      those accepted by the one plus those accepted by the other. */
  lemma {:induction false} CountEither<T>(xs: seq<T>, p: T -> bool, q: T -> bool, either: T -> bool)
    requires forall x :: either(x) <==> p(x) || q(x)
    requires forall x :: !(p(x) && q(x))
    ensures Count(xs, either) == Count(xs, p) + Count(xs, q)
  {
    if xs != [] {
      CountEither(xs[1..], p, q, either);
    }
  }

  /** Three mutually exclusive predicates together accept at most every element. */
  lemma {:induction false} CountDisjoint3<T>(xs: seq<T>, p: T -> bool, q: T -> bool, s: T -> bool)
    requires forall x :: x in xs ==> !(p(x) && q(x)) && !(p(x) && s(x)) && !(q(x) && s(x))
    ensures Count(xs, p) + Count(xs, q) + Count(xs, s) <= |xs|
  {
    if xs != [] {
      CountDisjoint3(xs[1..], p, q, s);
    }
  }

  /** Query slicing `qs[:n]`: the first `n` elements, or all of them. */
  function Take<T>(xs: seq<T>, n: nat): (r: seq<T>)
    ensures |r| <= n && |r| <= |xs|
    ensures |xs| <= n ==> r == xs
    ensures r == xs[..|r|]
  {
    if |xs| <= n then xs else xs[..n]
  }

  // ---------------------------------------------------------------- sums

  function Sum(xs: seq<int>): int
  {
    if xs == [] then 0 else xs[0] + Sum(xs[1..])
  }

  /** Each NULL read as 0. */
  function NullAsZero(xs: seq<Option<int>>): (r: seq<int>)
    ensures |r| == |xs|
    ensures forall i :: 0 <= i < |xs| ==> r[i] == (if xs[i].Some? then xs[i].value else 0)
  {
    if xs == [] then [] else [if xs[0].Some? then xs[0].value else 0] + NullAsZero(xs[1..])
  }

  /** SQL `SUM` over the non-null values: NULL when there is none. */
  function SumNonNull(xs: seq<Option<int>>): (r: Option<int>)
    ensures r.None? <==> forall i :: 0 <= i < |xs| ==> xs[i].None?
    ensures Sum(NullAsZero(xs)) == (if r.Some? then r.value else 0)
  {
    if xs == [] then None
    else
      var rest := SumNonNull(xs[1..]);
      assert NullAsZero(xs)[1..] == NullAsZero(xs[1..]);
      match xs[0]
      case None => rest
      case Some(v) => Some(v + (if rest.Some? then rest.value else 0))
  }

  /** SQL `SUM` over a column without nulls: NULL on an empty set. */
  function SumColumn(xs: seq<int>): (r: Option<int>)
    ensures r.None? <==> xs == []
    ensures r.Some? ==> r.value == Sum(xs)
  {
    if xs == [] then None else Some(Sum(xs))
  }

  /** Python's `total or 0` for an aggregate that may be NULL. */
  function OrZero(total: Option<int>): (r: int)
    ensures total.None? ==> r == 0
    ensures total.Some? ==> r == total.value
  {
    if total.Some? && total.value != 0 then total.value else 0
  }

  lemma {:induction false} SumNonNegative(xs: seq<int>)
    requires forall i :: 0 <= i < |xs| ==> xs[i] >= 0
    ensures Sum(xs) >= 0
  {
    if xs != [] {
      SumNonNegative(xs[1..]);
    }
  }
}

=== FILE: src/consistency.dfy ===
/** Agreement between the browser client and the REST back end: the client's
    own checks and routes match what the server accepts and serves. */
module Consistency {
  import opened Base
  import opened Session
  import RouteGuards
  import Login
  import Signup
  import UserSerializers
  import UserViews
  import TripModels

  /** Every password pair registration accepts also passes the sign-up form's
      own check, and for passwords within the Basic Multilingual Plane the two
      checks agree. */
  lemma SignupCheckCoversRegistration(password: string, password2: string)
    ensures UserSerializers.RegisterPasswordErrors(Some(password), Some(password2)) == []
        ==> Signup.PreSubmitError(password, password2).None?
    ensures (forall i :: 0 <= i < |password| ==> password[i] as int <= 0xFFFF)
        ==> (Signup.PreSubmitError(password, password2).None?
             <==> UserSerializers.RegisterPasswordErrors(Some(password), Some(password2)) == [])
  {
  }

  /** The converse fails: the form counts UTF-16 code units and the server
      counts characters, so three characters outside the Basic Multilingual
      Plane pass the form and are refused by the server as too short. */
  lemma AstralPasswordPassesOnlyTheForm()
    ensures var p := "\U{1F600}\U{1F600}\U{1F600}";
      && Signup.PreSubmitError(p, p).None?
      && UserSerializers.RegisterPasswordErrors(Some(p), Some(p)) 
         == [("password", [UserSerializers.TooShortMessage]), ("password2", [UserSerializers.TooShortMessage])]
  {
    var p := "\U{1F600}\U{1F600}\U{1F600}";
    assert |p| == 3 && JsLength(p) == 6;
  }

  /** A signed-in session passes the admin and super-admin route guards
      exactly when the server's permission classes grant its role. */
  lemma RouteGuardsMatchPermissions(s: Storage)
    requires Truthy(s.accessToken) && s.user.Some?
    ensures RouteGuards.Guarded(RouteGuards.AdminRoute, s) == RouteGuards.Render
        <==> UserViews.IsAdminUser(UserViews.Authenticated(s.user.value.id, s.user.value.role))
    ensures RouteGuards.Guarded(RouteGuards.SuperAdminRoute, s) == RouteGuards.Render
        <==> UserViews.IsSuperAdmin(UserViews.Authenticated(s.user.value.id, s.user.value.role))
  {
  }

  /** Login and the guest guard disagree on where a signed-in session
      belongs: login sends administrators to `/dashboard` and plain users to
      `/trips`, while the guest guard sends the same sessions to `/admin` and
      `/dashboard` respectively. */
  lemma LoginRedirectDiffersFromGuestHome(access: string, refresh: string, user: Profile)
    requires access != ""
    ensures user.role == "admin" || user.role == "superadmin" ==>
      && Login.RedirectAfterLogin(user.role) == DashboardPath
      && RouteGuards.Guarded(RouteGuards.GuestRoute, Login.SignedIn(access, refresh, user)) == RouteGuards.Navigate(AdminPath)
    ensures user.role == "user" ==>
      && Login.RedirectAfterLogin(user.role) == TripsPath
      && RouteGuards.Guarded(RouteGuards.GuestRoute, Login.SignedIn(access, refresh, user)) == RouteGuards.Navigate(DashboardPath)
    ensures RouteGuards.Guarded(RouteGuards.GuestRoute, Login.SignedIn(access, refresh, user))
         != RouteGuards.Navigate(Login.RedirectAfterLogin(user.role))
  {
    Login.SignedInSessionIsRecognised(access, refresh, user);
  }
}

=== FILE: src/login.dfy ===
/** The login form's submit handler: what it stores, where it navigates and
    which notice it shows on failure (frontend/src/pages/Login.js). */
module Login {
  import opened Base
  import opened Session
  import RouteGuards

  /** The server's answer to the login request. */
  datatype LoginReply = LoggedIn(access: string, refresh: string, user: Profile) | LoginFailed(status: Option<int>)

  datatype Credentials = Credentials(username: string, password: string)

  /** Where a freshly signed-in user is sent. */
  function RedirectAfterLogin(role: string): (path: string)
    ensures path == DashboardPath <==> role == "admin" || role == "superadmin"
    ensures path == DashboardPath || path == TripsPath
  {
    if role == "superadmin" || role == "admin" then DashboardPath else TripsPath
  }

  /** The notice for a failed login. */
  function LoginErrorText(status: Option<int>): (msg: string)
    ensures msg == "Invalid username or password" <==> status == Some(400)
    ensures msg == "Invalid username or password" || msg == "Login failed. Please try again."
  {
    if status == Some(400) then "Invalid username or password" else "Login failed. Please try again."
  }

  /** The storage a successful login leaves behind. */
  function SignedIn(access: string, refresh: string, user: Profile): Storage
  {
    Storage(Some(access), Some(refresh), Some(user))
  }

  /** After signing in with a non-empty access token, the guards see an
      authenticated session whose role is the one the server sent. */
  lemma SignedInSessionIsRecognised(access: string, refresh: string, user: Profile)
    requires access != ""
    ensures RouteGuards.Guarded(RouteGuards.ProtectedRoute, SignedIn(access, refresh, user)) == RouteGuards.Render
    ensures user.role == "admin" ==> RouteGuards.Classify(SignedIn(access, refresh, user)) == RouteGuards.Admin
    ensures user.role == "superadmin" ==> RouteGuards.Classify(SignedIn(access, refresh, user)) == RouteGuards.SuperAdmin
    ensures user.role == "user" ==> RouteGuards.Classify(SignedIn(access, refresh, user)) == RouteGuards.RegularUser
  {
  }

  class Page {
    var username: string
    var password: string
    var loading: bool

    constructor ()
      ensures username == "" && password == "" && !loading
    {
      username := "";
      password := "";
      loading := false;
    }

    /** `handleSubmit` up to the request: the spinner is on while it is out. */
    method Submit() returns (request: Credentials)
      modifies this`loading
      ensures loading && request == Credentials(username, password)
    {
      loading := true;
      request := Credentials(username, password);
    }

    /** `handleSubmit` after the reply: store, navigate or complain, and turn the
        spinner off in every case. */
    method Completed(b: Browser, reply: LoginReply)
      modifies this`loading, b
      ensures !loading
      ensures reply.LoggedIn? ==>
        && b.storage == SignedIn(reply.access, reply.refresh, reply.user)
        && b.location == RedirectAfterLogin(reply.user.role)
        && b.notices == old(b.notices)
      ensures reply.LoginFailed? ==>
        && b.storage == old(b.storage)
        && b.location == old(b.location)
        && b.notices == old(b.notices) + [LoginErrorText(reply.status)]
    {
      match reply {
      case LoggedIn(access, refresh, user) =>
        b.storage := b.storage.(accessToken := Some(access));
        b.storage := b.storage.(refreshToken := Some(refresh));
        b.storage := b.storage.(user := Some(user));
        if user.role == "superadmin" || user.role == "admin" {
          b.location := DashboardPath;
        } else {
          b.location := TripsPath;
        }
      case LoginFailed(status) =>
        if status == Some(400) {
          b.notices := b.notices + ["Invalid username or password"];
        } else {
          b.notices := b.notices + ["Login failed. Please try again."];
        }
      }
      loading := false;
    }
  }
}

=== FILE: src/route_guards.dfy ===
/** Client-side route access: `getUserData` turns the stored token and user into
    flags, and six guard components map the flags to "render the page" or
    "navigate elsewhere" (frontend/src/utils/RouteGuards.js). */
module RouteGuards {
  import opened Base
  import opened Session

  /** The object `getUserData` returns. */
  datatype UserData = UserData(
    user: Option<Profile>,
    isAuthenticated: bool,
    isUser: bool,
    isAdmin: bool,
    isSuperAdmin: bool,
    isAnyAdmin: bool)

  /** The six guard components. */
  datatype Guard = GuestRoute | ProtectedRoute | AdminRoute | SuperAdminRoute | UserOnlyRoute | UserOrSuperAdminRoute

  /** A guard either renders its children or navigates (with `replace`) elsewhere. */
  datatype Outcome = Render | Navigate(to: string)

  predicate HasRole(user: Option<Profile>, role: string)
  {
    user.Some? && user.value.role == role
  }

  function GetUserData(s: Storage): (d: UserData)
    ensures d.user == s.user
    ensures d.isAuthenticated <==> Truthy(s.accessToken)
    ensures d.isAnyAdmin <==> d.isAdmin || d.isSuperAdmin
    ensures !(d.isUser && d.isAdmin) && !(d.isUser && d.isSuperAdmin) && !(d.isAdmin && d.isSuperAdmin)
    ensures s.user.None? ==> !d.isUser && !d.isAdmin && !d.isSuperAdmin && !d.isAnyAdmin
    ensures d.isUser || d.isAdmin || d.isSuperAdmin <==>
              s.user.Some? && s.user.value.role in {"user", "admin", "superadmin"}
  {
    UserData(
      s.user,
      Truthy(s.accessToken),
      HasRole(s.user, "user"),
      HasRole(s.user, "admin"),
      HasRole(s.user, "superadmin"),
      HasRole(s.user, "admin") || HasRole(s.user, "superadmin"))
  }

  /** What each guard component returns for the flags. */
  function Decide(g: Guard, d: UserData): Outcome
  {
    match g
    case GuestRoute =>
      if !d.isAuthenticated then Render
      else Navigate(if d.isAnyAdmin then AdminPath else DashboardPath)
    case ProtectedRoute =>
      if d.isAuthenticated then Render else Navigate(LoginPath)
    case AdminRoute =>
      if !d.isAuthenticated then Navigate(LoginPath)
      else if !d.isAnyAdmin then Navigate(DashboardPath)
      else Render
    case SuperAdminRoute =>
      if !d.isAuthenticated then Navigate(LoginPath)
      else if !d.isSuperAdmin then Navigate(AdminPath)
      else Render
    case UserOnlyRoute =>
      if !d.isAuthenticated then Navigate(LoginPath)
      else if !d.isUser then Navigate(AdminPath)
      else Render
    case UserOrSuperAdminRoute =>
      if !d.isAuthenticated then Navigate(LoginPath)
      else if !d.isUser && !d.isSuperAdmin then Navigate(AdminPath)
      else Render
  }

  /** The guard that wraps a route, applied to what is in storage. */
  function Guarded(g: Guard, s: Storage): Outcome
  {
    Decide(g, GetUserData(s))
  }

  // ------------------------------------------------------------ the decision table

  /** The five kinds of session the guards tell apart. `Roleless` is a stored
      token with no stored user, or with a role outside the three known ones. */
  datatype SessionKind = Anonymous | RegularUser | Admin | SuperAdmin | Roleless

  function Classify(s: Storage): SessionKind
  {
    if !Truthy(s.accessToken) then Anonymous
    else if s.user.None? then Roleless
    else if s.user.value.role == "user" then RegularUser
    else if s.user.value.role == "admin" then Admin
    else if s.user.value.role == "superadmin" then SuperAdmin
    else Roleless
  }

  /** The access table, row by row, written independently of the flag logic. */
  function Table(g: Guard, k: SessionKind): Outcome
  {
    match (g, k)
    case (GuestRoute, Anonymous) => Render
    case (GuestRoute, Admin) => Navigate(AdminPath)
    case (GuestRoute, SuperAdmin) => Navigate(AdminPath)
    case (GuestRoute, _) => Navigate(DashboardPath)
    case (_, Anonymous) => Navigate(LoginPath)
    case (ProtectedRoute, _) => Render
    case (AdminRoute, Admin) => Render
    case (AdminRoute, SuperAdmin) => Render
    case (AdminRoute, _) => Navigate(DashboardPath)
    case (SuperAdminRoute, SuperAdmin) => Render
    case (SuperAdminRoute, _) => Navigate(AdminPath)
    case (UserOnlyRoute, RegularUser) => Render
    case (UserOnlyRoute, _) => Navigate(AdminPath)
    case (UserOrSuperAdminRoute, RegularUser) => Render
    case (UserOrSuperAdminRoute, SuperAdmin) => Render
    case (UserOrSuperAdminRoute, _) => Navigate(AdminPath)
  }

  /** Every guard, on every stored state, does what the table says. */
  lemma GuardsFollowTable(g: Guard, s: Storage)
    ensures Guarded(g, s) == Table(g, Classify(s))
  {
  }

  /** Authentication depends on the stored token alone, never on the stored user. */
  lemma AuthenticationIgnoresUser(s: Storage, t: Storage)
    requires s.accessToken == t.accessToken
    ensures GetUserData(s).isAuthenticated == GetUserData(t).isAuthenticated
  {
  }

  lemma GuestRouteDecision(s: Storage)
    ensures Guarded(GuestRoute, s) == Render <==> !Truthy(s.accessToken)
    ensures Truthy(s.accessToken) ==>
              Guarded(GuestRoute, s) == Navigate(if Classify(s) in {Admin, SuperAdmin} then AdminPath else DashboardPath)
  {
  }

  lemma ProtectedRouteDecision(s: Storage)
    ensures Guarded(ProtectedRoute, s) == (if Truthy(s.accessToken) then Render else Navigate(LoginPath))
  {
  }

  /** Every guard but `GuestRoute` sends an anonymous visitor to the login page. */
  lemma AnonymousGoesToLogin(g: Guard, s: Storage)
    requires g != GuestRoute && !Truthy(s.accessToken)
    ensures Guarded(g, s) == Navigate(LoginPath)
  {
  }

  lemma AdminRouteDecision(s: Storage)
    ensures Guarded(AdminRoute, s) == Render <==> Classify(s) in {Admin, SuperAdmin}
    ensures Classify(s) in {RegularUser, Roleless} ==> Guarded(AdminRoute, s) == Navigate(DashboardPath)
  {
  }

  lemma SingleRoleRouteDecisions(s: Storage)
    ensures Guarded(SuperAdminRoute, s) == Render <==> Classify(s) == SuperAdmin
    ensures Guarded(UserOnlyRoute, s) == Render <==> Classify(s) == RegularUser
    ensures Classify(s) !in {Anonymous, SuperAdmin} ==> Guarded(SuperAdminRoute, s) == Navigate(AdminPath)
    ensures Classify(s) !in {Anonymous, RegularUser} ==> Guarded(UserOnlyRoute, s) == Navigate(AdminPath)
  {
  }

  lemma UserOrSuperAdminRouteDecision(s: Storage)
    ensures Guarded(UserOrSuperAdminRoute, s) == Render <==> Classify(s) in {RegularUser, SuperAdmin}
    ensures Classify(s) in {Admin, Roleless} ==> Guarded(UserOrSuperAdminRoute, s) == Navigate(AdminPath)
  {
  }

  /** A stored token without a usable profile is never sent to the login page:
      it lands on `/admin` or `/dashboard` depending on the guard. */
  lemma RolelessSessionNeverSentToLogin(g: Guard, s: Storage)
    requires Classify(s) == Roleless
    ensures Guarded(g, s) != Navigate(LoginPath)
    ensures g in {GuestRoute, AdminRoute} ==> Guarded(g, s) == Navigate(DashboardPath)
    ensures g in {SuperAdminRoute, UserOnlyRoute, UserOrSuperAdminRoute} ==> Guarded(g, s) == Navigate(AdminPath)
  {
  }

  /** Signed in as an admin: the guest pages, the user-only pages and the
      user-or-superadmin pages all send the visitor to `/admin`. */
  lemma AdminSessionScenario(s: Storage)
    requires Truthy(s.accessToken) && HasRole(s.user, "admin")
    ensures Guarded(GuestRoute, s) == Navigate(AdminPath)
    ensures Guarded(UserOnlyRoute, s) == Navigate(AdminPath)
    ensures Guarded(UserOrSuperAdminRoute, s) == Navigate(AdminPath)
    ensures Guarded(AdminRoute, s) == Render
  {
  }
}

=== FILE: src/session.dfy ===
/** The browser-side state the front end shares between pages: the three
    localStorage keys (`access_token`, `refresh_token`, `user`), the current
    location, and the error notices (toasts) shown to the user. */
module Session {
  import opened Base

  /** The user record stored under `user` (JSON-encoded by the pages, decoded by
      the route guards). `role` is whatever string the server sent. */
  datatype Profile = Profile(id: int, username: string, email: string, role: string)

  /** The three localStorage keys; `None` is a key that is not set. */
  datatype Storage = Storage(accessToken: Option<string>, refreshToken: Option<string>, user: Option<Profile>)

  /** `localStorage.clear()`. */
  const Cleared := Storage(None, None, None)

  const LoginPath := "/login"
  const AdminPath := "/admin"
  const DashboardPath := "/dashboard"
  const TripsPath := "/trips"

  /** The page's window: storage, location and the notices shown so far. */
  class Browser {
    var storage: Storage
    var location: string
    var notices: seq<string>

    constructor (storage: Storage, location: string)
      ensures this.storage == storage && this.location == location && notices == []
    {
      this.storage := storage;
      this.location := location;
      notices := [];
    }
  }
}

=== FILE: src/signup.dfy ===
/** The sign-up form: its field updates, the checks made before anything is
    sent, what a successful registration stores, and how the server's field
    errors become notices (frontend/src/pages/Signup.js). */
module Signup {
  import opened Base
  import opened Session

  const MinPasswordLength := 6

  /** The server's answer to the registration request. `data` is the error body,
      its fields in key order; `None` when the failure carried no body. */
  datatype SignupReply =
    | Registered(access: string, refresh: string, user: Profile)
    | SignupFailed(data: Option<seq<(string, ErrorValue)>>)

  /** A form field's current value (`''` when unset). */
  function Field(form: map<string, string>, key: string): string
  {
    if key in form then form[key] else ""
  }

  /** The checks `handleSubmit` makes before sending; `Some(notice)` stops it. */
  function PreSubmitError(password: string, password2: string): (e: Option<string>)
    ensures e.None? <==> password == password2 && JsLength(password) >= MinPasswordLength
    ensures password != password2 ==> e == Some("Passwords do not match!")
    ensures password == password2 && JsLength(password) < MinPasswordLength ==>
              e == Some("Password must be at least 6 characters long")
  {
    if password != password2 then Some("Passwords do not match!")
    else if JsLength(password) < MinPasswordLength then Some("Password must be at least 6 characters long")
    else None
  }

  /** `handleChange`: `{...formData, [name]: value}`. */
  function Changed(form: map<string, string>, name: string, value: string): (r: map<string, string>)
    ensures r.Keys == form.Keys + {name}
    ensures r[name] == value
    ensures forall k :: k in form && k != name ==> r[k] == form[k]
  {
    form[name := value]
  }

  /** The notices for one field of the error body. */
  function FieldMessages(key: string, v: ErrorValue): (r: seq<string>)
    ensures v.Messages? ==> |r| == |v.msgs| && forall i :: 0 <= i < |r| ==> r[i] == key + ": " + v.msgs[i]
    ensures v.Text? ==> r == [v.text]
  {
    match v
    case Messages(msgs) => seq(|msgs|, i requires 0 <= i < |msgs| => key + ": " + msgs[i])
    case Text(text) => [text]
  }

  /** The notices for a whole error body, field after field. */
  function ErrorMessages(errors: seq<(string, ErrorValue)>): seq<string>
  {
    if errors == [] then []
    else ErrorMessages(errors[..|errors| - 1]) + FieldMessages(errors[|errors| - 1].0, errors[|errors| - 1].1)
  }

  /** How many notices a field produces: one per message of a list, one otherwise. */
  function Arity(v: ErrorValue): nat
  {
    match v
    case Messages(msgs) => |msgs|
    case Text(_) => 1
  }

  function TotalArity(errors: seq<(string, ErrorValue)>): nat
  {
    if errors == [] then 0 else TotalArity(errors[..|errors| - 1]) + Arity(errors[|errors| - 1].1)
  }

  /** An error body yields exactly one notice per listed message and one per
      other field. */
  lemma {:induction false} ErrorMessageCount(errors: seq<(string, ErrorValue)>)
    ensures |ErrorMessages(errors)| == TotalArity(errors)
  {
    if errors != [] {
      ErrorMessageCount(errors[..|errors| - 1]);
    }
  }

  /** The body's notices are the notices of its first part followed by those of
      the rest. */
  lemma {:induction false} ErrorMessagesAppend(a: seq<(string, ErrorValue)>, b: seq<(string, ErrorValue)>)
    ensures ErrorMessages(a + b) == ErrorMessages(a) + ErrorMessages(b)
  {
    if b != [] {
      var last := |b| - 1;
      assert (a + b)[..|a + b| - 1] == a + b[..last];
      ErrorMessagesAppend(a, b[..last]);
    } else {
      assert a + b == a;
    }
  }

  /** The nested `forEach` loops of the error branch. */
  method CollectErrorMessages(errors: seq<(string, ErrorValue)>) returns (notices: seq<string>)
    ensures notices == ErrorMessages(errors)
  {
    notices := [];
    var i := 0;
    while i < |errors|
      invariant 0 <= i <= |errors|
      invariant notices == ErrorMessages(errors[..i])
    {
      var (key, value) := errors[i];
      match value {
        case Messages(msgs) =>
          var j := 0;
          while j < |msgs|
            invariant 0 <= j <= |msgs|
            invariant notices == ErrorMessages(errors[..i]) + FieldMessages(key, Messages(msgs[..j]))
          {
            notices := notices + [key + ": " + msgs[j]];
            j := j + 1;
          }
          assert msgs[..j] == msgs;
        case Text(text) =>
          notices := notices + [text];
      }
      assert errors[..i + 1][..i] == errors[..i];
      i := i + 1;
    }
    assert errors[..i] == errors;
  }

  /** The storage a successful registration leaves behind. */
  function Registration(access: string, refresh: string, user: Profile): Storage
  {
    Storage(Some(access), Some(refresh), Some(user))
  }

  class Page {
    var form: map<string, string>
    var loading: bool

    constructor ()
      ensures form == map["username" := "", "email" := "", "password" := "", "password2" := "",
                          "first_name" := "", "last_name" := "", "phone" := ""]
      ensures !loading
    {
      form := map["username" := "", "email" := "", "password" := "", "password2" := "",
                  "first_name" := "", "last_name" := "", "phone" := ""];
      loading := false;
    }

    method Change(name: string, value: string)
      modifies this`form
      ensures form == Changed(old(form), name, value)
    {
      form := form[name := value];
    }

    /** `handleSubmit` up to the request. A failed check shows one notice and
        sends nothing; otherwise the spinner goes on and the form is sent. */
    method Submit(b: Browser) returns (request: Option<map<string, string>>)
      modifies this`loading, b`notices
      ensures var e := PreSubmitError(Field(form, "password"), Field(form, "password2"));
        && (e.Some? ==> request.None? && loading == old(loading) && b.notices == old(b.notices) + [e.value])
        && (e.None? ==> request == Some(form) && loading && b.notices == old(b.notices))
    {
      if Field(form, "password") != Field(form, "password2") {
        b.notices := b.notices + ["Passwords do not match!"];
        return None;
      }
      if JsLength(Field(form, "password")) < MinPasswordLength {
        b.notices := b.notices + ["Password must be at least 6 characters long"];
        return None;
      }
      loading := true;
      request := Some(form);
    }

    /** `handleSubmit` after the reply. */
    method Completed(b: Browser, reply: SignupReply)
      modifies this`loading, b
      ensures !loading
      ensures reply.Registered? ==>
        && b.storage == Registration(reply.access, reply.refresh, reply.user)
        && b.location == TripsPath
        && b.notices == old(b.notices)
      ensures reply.SignupFailed? ==>
        && b.storage == old(b.storage)
        && b.location == old(b.location)
        && b.notices == old(b.notices) + (if reply.data.Some? then ErrorMessages(reply.data.value)
                                          else ["Signup failed. Please try again."])
    {
      match reply {
        case Registered(access, refresh, user) =>
          b.storage := Registration(access, refresh, user);
          b.location := TripsPath;
        case SignupFailed(data) =>
          if data.Some? {
            var notices := CollectErrorMessages(data.value);
            b.notices := b.notices + notices;
          } else {
            b.notices := b.notices + ["Signup failed. Please try again."];
          }
      }
      loading := false;
    }
  }
}

=== FILE: src/trip_detail.dfy ===
/** The trip workspace page: loading a trip with its activities, expenses and
    checklist, and the add / toggle / delete handlers, each of which submits
    first and reloads the whole workspace only after the server agreed
    (frontend/src/pages/TripDetail.js). */
module TripDetail {
  import opened Base

  datatype ActivityView = ActivityView(id: int, name: string, completed: bool)
  datatype ExpenseView = ExpenseView(id: int, description: string, amount: int)
  datatype ChecklistView = ChecklistView(id: int, item: string, completed: bool)

  /** The trip as the detail endpoint sends it; the nested lists may be absent. */
  datatype TripData = TripData(
    id: int,
    title: string,
    activities: Option<seq<ActivityView>>,
    expenses: Option<seq<ExpenseView>>,
    checklistItems: Option<seq<ChecklistView>>)

  /** The statistics endpoint's body, shown as it is. */
  datatype StatisticsData = StatisticsData(totalActivities: int, completedActivities: int, totalExpenses: int)

  datatype ActivityForm = ActivityForm(
    name: string, description: string, category: string, date: string,
    time: string, location: string, cost: string, notes: string)

  datatype ExpenseForm = ExpenseForm(description: string, amount: string, category: string, date: string, notes: string)

  datatype ChecklistForm = ChecklistForm(item: string, category: string, priority: int)

  const BlankActivity := ActivityForm("", "", "other", "", "", "", "", "")
  const BlankExpense := ExpenseForm("", "", "other", "", "")
  const BlankChecklistItem := ChecklistForm("", "general", 0)

  /** The requests the page sends for trip `tripId`. */
  datatype Request =
    | GetTrip(tripId: int)
    | GetStatistics(tripId: int)
    | CreateActivity(activity: ActivityForm, forTrip: int)
    | ToggleActivity(activityId: int)
    | DeleteActivity(activityId: int)
    | CreateExpense(expense: ExpenseForm, forTrip: int)
    | DeleteExpense(expenseId: int)
    | CreateChecklistItem(checklistItem: ChecklistForm, forTrip: int)
    | ToggleChecklistItem(itemId: int)
    | DeleteChecklistItem(itemId: int)
    | DeleteTrip(tripId: int)

  /** `x || []` for a nested list. */
  function OrEmpty<T>(xs: Option<seq<T>>): (r: seq<T>)
    ensures xs.None? ==> r == []
    ensures xs.Some? ==> r == xs.value
  {
    if xs.Some? then xs.value else []
  }

  predicate IsPending(i: ChecklistView)
  {
    !i.completed
  }

  /** The number on the checklist tab: the items not yet completed. */
  function PendingCount(checklist: seq<ChecklistView>): (n: nat)
    ensures n <= |checklist|
    ensures n == 0 <==> forall i :: 0 <= i < |checklist| ==> checklist[i].completed
  {
    var pending := Filter(checklist, IsPending);
    assert forall i :: 0 <= i < |checklist| && !checklist[i].completed ==> checklist[i] in pending;
    |pending|
  }

  predicate IsDone(i: ChecklistView)
  {
    i.completed
  }

  /** Pending and completed items together make up the checklist. */
  lemma PendingPlusCompleted(checklist: seq<ChecklistView>)
    ensures PendingCount(checklist) + Count(checklist, IsDone) == |checklist|
  {
    CountSplit(checklist, IsPending, IsDone);
  }

  class Page {
    const tripId: int
    var trip: Option<TripData>
    var activities: seq<ActivityView>
    var expenses: seq<ExpenseView>
    var checklist: seq<ChecklistView>
    var statistics: Option<StatisticsData>
    var loading: bool
    var showActivityForm: bool
    var showExpenseForm: bool
    var showChecklistForm: bool
    var newActivity: ActivityForm
    var newExpense: ExpenseForm
    var newChecklistItem: ChecklistForm
    var navigatedTo: Option<string>
    var sent: seq<Request>
    var notices: seq<string>

    /** The server-derived part of the page. */
    ghost function Loaded(): (Option<TripData>, seq<ActivityView>, seq<ExpenseView>, seq<ChecklistView>, Option<StatisticsData>)
      reads this
    {
      (trip, activities, expenses, checklist, statistics)
    }

    /** The form part of the page. */
    ghost function Forms(): (bool, bool, bool, ActivityForm, ExpenseForm, ChecklistForm)
      reads this
    {
      (showActivityForm, showExpenseForm, showChecklistForm, newActivity, newExpense, newChecklistItem)
    }

    constructor (tripId: int)
      ensures this.tripId == tripId && trip.None? && activities == [] && expenses == [] && checklist == []
      ensures statistics.None? && loading && navigatedTo.None? && sent == [] && notices == []
      ensures Forms() == (false, false, false, BlankActivity, BlankExpense, BlankChecklistItem)
    {
      this.tripId := tripId;
      trip := None;
      activities := [];
      expenses := [];
      checklist := [];
      statistics := None;
      loading := true;
      showActivityForm := false;
      showExpenseForm := false;
      showChecklistForm := false;
      newActivity := BlankActivity;
      newExpense := BlankExpense;
      newChecklistItem := BlankChecklistItem;
      navigatedTo := None;
      sent := [];
      notices := [];
    }

    /** `fetchTripDetails`, the request half: the trip and its statistics. */
    method FetchTripDetails()
      modifies this`sent
      ensures sent == old(sent) + [GetTrip(tripId), GetStatistics(tripId)]
    {
      sent := sent + [GetTrip(tripId), GetStatistics(tripId)];
    }

    /** `fetchTripDetails`, the reply half. A failure keeps what was loaded. */
    method TripDetailsLoaded(reply: Option<(TripData, StatisticsData)>)
      modifies this`trip, this`activities, this`expenses, this`checklist, this`statistics, this`loading, this`notices
      ensures !loading
      ensures reply.Some? ==>
        && trip == Some(reply.value.0)
        && activities == OrEmpty(reply.value.0.activities)
        && expenses == OrEmpty(reply.value.0.expenses)
        && checklist == OrEmpty(reply.value.0.checklistItems)
        && statistics == Some(reply.value.1)
        && notices == old(notices)
      ensures reply.None? ==> Loaded() == old(Loaded()) && notices == old(notices) + ["Failed to load trip details"]
    {
      if reply.Some? {
        var (data, stats) := reply.value;
        trip := Some(data);
        activities := OrEmpty(data.activities);
        expenses := OrEmpty(data.expenses);
        checklist := OrEmpty(data.checklistItems);
        statistics := Some(stats);
        loading := false;
      } else {
        notices := notices + ["Failed to load trip details"];
        loading := false;
      }
    }

    /** `handleAddActivity`. */
    method AddActivity(ok: bool)
      modifies this`sent, this`notices, this`newActivity, this`showActivityForm
      ensures ok ==> newActivity == BlankActivity && !showActivityForm && notices == old(notices)
      ensures ok ==> sent == old(sent) + [CreateActivity(old(newActivity), tripId), GetTrip(tripId), GetStatistics(tripId)]
      ensures !ok ==> newActivity == old(newActivity) && showActivityForm == old(showActivityForm)
      ensures !ok ==> sent == old(sent) + [CreateActivity(old(newActivity), tripId)]
      ensures !ok ==> notices == old(notices) + ["Failed to add activity"]
    {
      sent := sent + [CreateActivity(newActivity, tripId)];
      if ok {
        newActivity := BlankActivity;
        showActivityForm := false;
        FetchTripDetails();
      } else {
        notices := notices + ["Failed to add activity"];
      }
    }

    /** `handleToggleActivity`: the local list is not touched; only the reload
        after the server's success can change it. */
    method ToggleActivityClicked(activityId: int, ok: bool)
      modifies this`sent, this`notices
      ensures ok ==> sent == old(sent) + [ToggleActivity(activityId), GetTrip(tripId), GetStatistics(tripId)]
      ensures ok ==> notices == old(notices)
      ensures !ok ==> sent == old(sent) + [ToggleActivity(activityId)]
      ensures !ok ==> notices == old(notices) + ["Failed to update activity"]
    {
      sent := sent + [ToggleActivity(activityId)];
      if ok {
        FetchTripDetails();
      } else {
        notices := notices + ["Failed to update activity"];
      }
    }

    /** `handleDeleteActivity`: nothing is sent unless the user confirms. */
    method DeleteActivityClicked(activityId: int, confirmed: bool, ok: bool)
      modifies this`sent, this`notices
      ensures !confirmed ==> sent == old(sent) && notices == old(notices)
      ensures confirmed && ok ==> sent == old(sent) + [DeleteActivity(activityId), GetTrip(tripId), GetStatistics(tripId)]
      ensures confirmed && ok ==> notices == old(notices)
      ensures confirmed && !ok ==> sent == old(sent) + [DeleteActivity(activityId)]
      ensures confirmed && !ok ==> notices == old(notices) + ["Failed to delete activity"]
    {
      if confirmed {
        sent := sent + [DeleteActivity(activityId)];
        if ok {
          FetchTripDetails();
        } else {
          notices := notices + ["Failed to delete activity"];
        }
      }
    }

    /** `handleAddExpense`. */
    method AddExpense(ok: bool)
      modifies this`sent, this`notices, this`newExpense, this`showExpenseForm
      ensures ok ==> newExpense == BlankExpense && !showExpenseForm && notices == old(notices)
      ensures ok ==> sent == old(sent) + [CreateExpense(old(newExpense), tripId), GetTrip(tripId), GetStatistics(tripId)]
      ensures !ok ==> newExpense == old(newExpense) && showExpenseForm == old(showExpenseForm)
      ensures !ok ==> sent == old(sent) + [CreateExpense(old(newExpense), tripId)]
      ensures !ok ==> notices == old(notices) + ["Failed to add expense"]
    {
      sent := sent + [CreateExpense(newExpense, tripId)];
      if ok {
        newExpense := BlankExpense;
        showExpenseForm := false;
        FetchTripDetails();
      } else {
        notices := notices + ["Failed to add expense"];
      }
    }

    /** `handleDeleteExpense`. */
    method DeleteExpenseClicked(expenseId: int, confirmed: bool, ok: bool)
      modifies this`sent, this`notices
      ensures !confirmed ==> sent == old(sent) && notices == old(notices)
      ensures confirmed && ok ==> sent == old(sent) + [DeleteExpense(expenseId), GetTrip(tripId), GetStatistics(tripId)]
      ensures confirmed && ok ==> notices == old(notices)
      ensures confirmed && !ok ==> sent == old(sent) + [DeleteExpense(expenseId)]
      ensures confirmed && !ok ==> notices == old(notices) + ["Failed to delete expense"]
    {
      if confirmed {
        sent := sent + [DeleteExpense(expenseId)];
        if ok {
          FetchTripDetails();
        } else {
          notices := notices + ["Failed to delete expense"];
        }
      }
    }

    /** `handleAddChecklistItem`. */
    method AddChecklistItem(ok: bool)
      modifies this`sent, this`notices, this`newChecklistItem, this`showChecklistForm
      ensures ok ==> newChecklistItem == BlankChecklistItem && !showChecklistForm && notices == old(notices)
      ensures ok ==> sent == old(sent) + [CreateChecklistItem(old(newChecklistItem), tripId), GetTrip(tripId), GetStatistics(tripId)]
      ensures !ok ==> newChecklistItem == old(newChecklistItem) && showChecklistForm == old(showChecklistForm)
      ensures !ok ==> sent == old(sent) + [CreateChecklistItem(old(newChecklistItem), tripId)]
      ensures !ok ==> notices == old(notices) + ["Failed to add item"]
    {
      sent := sent + [CreateChecklistItem(newChecklistItem, tripId)];
      if ok {
        newChecklistItem := BlankChecklistItem;
        showChecklistForm := false;
        FetchTripDetails();
      } else {
        notices := notices + ["Failed to add item"];
      }
    }

    /** `handleToggleChecklist`. */
    method ToggleChecklistClicked(itemId: int, ok: bool)
      modifies this`sent, this`notices
      ensures ok ==> sent == old(sent) + [ToggleChecklistItem(itemId), GetTrip(tripId), GetStatistics(tripId)]
      ensures ok ==> notices == old(notices)
      ensures !ok ==> sent == old(sent) + [ToggleChecklistItem(itemId)]
      ensures !ok ==> notices == old(notices) + ["Failed to update checklist"]
    {
      sent := sent + [ToggleChecklistItem(itemId)];
      if ok {
        FetchTripDetails();
      } else {
        notices := notices + ["Failed to update checklist"];
      }
    }

    /** `handleDeleteChecklist`. */
    method DeleteChecklistClicked(itemId: int, confirmed: bool, ok: bool)
      modifies this`sent, this`notices
      ensures !confirmed ==> sent == old(sent) && notices == old(notices)
      ensures confirmed && ok ==> sent == old(sent) + [DeleteChecklistItem(itemId), GetTrip(tripId), GetStatistics(tripId)]
      ensures confirmed && ok ==> notices == old(notices)
      ensures confirmed && !ok ==> sent == old(sent) + [DeleteChecklistItem(itemId)]
      ensures confirmed && !ok ==> notices == old(notices) + ["Failed to delete item"]
    {
      if confirmed {
        sent := sent + [DeleteChecklistItem(itemId)];
        if ok {
          FetchTripDetails();
        } else {
          notices := notices + ["Failed to delete item"];
        }
      }
    }

    /** `handleDeleteTrip`: a success leaves for the trip list instead of
        reloading. */
    method DeleteTripClicked(confirmed: bool, ok: bool)
      modifies this`sent, this`notices, this`navigatedTo
      ensures !confirmed ==> sent == old(sent) && notices == old(notices) && navigatedTo == old(navigatedTo)
      ensures confirmed ==> sent == old(sent) + [DeleteTrip(tripId)]
      ensures confirmed && ok ==> navigatedTo == Some("/trips") && notices == old(notices)
      ensures confirmed && !ok ==> navigatedTo == old(navigatedTo) && notices == old(notices) + ["Failed to delete trip"]
    {
      if confirmed {
        sent := sent + [DeleteTrip(tripId)];
        if ok {
          navigatedTo := Some("/trips");
        } else {
          notices := notices + ["Failed to delete trip"];
        }
      }
    }
  }

  /** Two successful toggles of the same activity send two toggle requests,
      each followed by a full reload, and change nothing locally. */
  method ToggleActivityTwice(p: Page, activityId: int)
    modifies p`sent, p`notices
    ensures p.notices == old(p.notices)
    ensures p.Loaded() == old(p.Loaded()) && p.Forms() == old(p.Forms())
    ensures p.sent == old(p.sent) + [ToggleActivity(activityId), GetTrip(p.tripId), GetStatistics(p.tripId),
                                     ToggleActivity(activityId), GetTrip(p.tripId), GetStatistics(p.tripId)]
  {
    p.ToggleActivityClicked(activityId, true);
    p.ToggleActivityClicked(activityId, true);
  }
}

=== FILE: src/trip_list.dfy ===
/** The "My Trips" page: loading the list and the search / status filter
    (frontend/src/pages/TripList.js). */
module TripList {
  import opened Base

  /** The fields of a listed trip that the page filters on. */
  datatype TripItem = TripItem(id: int, title: string, destination: string, status: string)

  /** `response.data.results || response.data`: the page state after a load. A
      paginated object without `results` is kept as it is, which is not an array. */
  function LoadedTrips(data: Payload<TripItem>): (r: JsonList<TripItem>)
    ensures data.Paged? && data.results.Some? ==> r == Array(data.results.value)
    ensures data.Bare? ==> r == Array(data.items)
    ensures r.NonArray? <==> data == Paged(None)
  {
    match data
    case Paged(Some(results)) => Array(results)
    case Bare(items) => Array(items)
    case Paged(None) => NonArray
  }

  predicate MatchesFilter(t: TripItem, filter: string)
  {
    filter == "all" || t.status == filter
  }

  predicate MatchesSearch(t: TripItem, search: string)
  {
    Matches(t.title, search) || Matches(t.destination, search)
  }

  function Visible(filter: string, search: string): TripItem -> bool
  {
    t => MatchesFilter(t, filter) && MatchesSearch(t, search)
  }

  /** `filteredTrips`. */
  function FilteredTrips(trips: seq<TripItem>, filter: string, search: string): (r: seq<TripItem>)
    ensures IsSubsequence(r, trips)
    ensures filter != "all" ==> forall i :: 0 <= i < |r| ==> r[i].status == filter
    ensures forall i :: 0 <= i < |r| ==> Matches(r[i].title, search) || Matches(r[i].destination, search)
    ensures forall i :: 0 <= i < |trips| && MatchesFilter(trips[i], filter) && MatchesSearch(trips[i], search) ==> trips[i] in r
    ensures forall x :: multiset(r)[x] == (if MatchesFilter(x, filter) && MatchesSearch(x, search) then multiset(trips)[x] else 0)
  {
    FilterMultiplicity(trips, Visible(filter, search));
    Filter(trips, Visible(filter, search))
  }

  /** With status `all` and an empty search box every loaded trip is shown. */
  lemma NoFilterShowsEverything(trips: seq<TripItem>)
    ensures FilteredTrips(trips, "all", "") == trips
  {
    forall t | t in trips ensures Visible("all", "")(t) {
      EmptySearchMatches(t.title);
    }
    FilterKeepsAll(trips, Visible("all", ""));
  }

  /** Filtering the shown list again with the same settings changes nothing. */
  lemma FilterIsIdempotent(trips: seq<TripItem>, filter: string, search: string)
    ensures FilteredTrips(FilteredTrips(trips, filter, search), filter, search) == FilteredTrips(trips, filter, search)
  {
    FilterIdempotent(trips, Visible(filter, search));
  }

  /** For one search text, the list for a particular status is an
      order-preserving part of the list for `all`. */
  lemma StatusListWithinAll(trips: seq<TripItem>, filter: string, search: string)
    ensures IsSubsequence(FilteredTrips(trips, filter, search), FilteredTrips(trips, "all", search))
  {
    FilterMonotone(trips, Visible(filter, search), Visible("all", search));
  }
}

=== FILE: src/trip_models.dfy ===
/** The trip planner's records and their rules: derived fields, field bounds,
    defaults, choices and default orderings (backend/trips/models.py). Money is
    in integer cents and dates are day numbers. */
module TripModels {
  import opened Base

  /** A `DecimalField(max_digits=10, decimal_places=2)` holds less than 10^8
      units, i.e. less than 10^10 cents. */
  const DecimalLimit: int := 10_000_000_000

  datatype Status = Planning | Upcoming | Ongoing | Completed | Cancelled

  const DefaultStatus := Planning

  /** The stored value of each status choice. */
  function StatusCode(s: Status): string
  {
    match s
    case Planning => "planning"
    case Upcoming => "upcoming"
    case Ongoing => "ongoing"
    case Completed => "completed"
    case Cancelled => "cancelled"
  }

  /** Choice validation: the five stored values and nothing else. */
  function ParseStatus(code: string): (r: Option<Status>)
    ensures r.Some? ==> StatusCode(r.value) == code
  {
    if code == "planning" then Some(Planning)
    else if code == "upcoming" then Some(Upcoming)
    else if code == "ongoing" then Some(Ongoing)
    else if code == "completed" then Some(Completed)
    else if code == "cancelled" then Some(Cancelled)
    else None
  }

  /** Every status survives being stored and read back. */
  lemma StatusRoundTrip(s: Status)
    ensures ParseStatus(StatusCode(s)) == Some(s)
  {
  }

  /** `createdAt` is a timestamp in seconds. */
  datatype Trip = Trip(
    id: int,
    owner: Option<int>,
    title: string,
    destination: string,
    startDate: int,
    endDate: int,
    budget: Option<int>,
    actualCost: int,
    status: Status,
    travelersCount: int,
    createdAt: int)

  predicate DecimalInRange(cents: int)
  {
    -DecimalLimit < cents < DecimalLimit
  }

  /** The field validators of a trip. */
  predicate ValidTrip(t: Trip)
  {
    && |t.title| <= 200 && |t.destination| <= 200
    && (t.budget.Some? ==> 0 <= t.budget.value && DecimalInRange(t.budget.value))
    && 0 <= t.actualCost && DecimalInRange(t.actualCost)
    && t.travelersCount >= 1
  }

  /** A trip as created with only the required fields given. */
  function NewTrip(id: int, title: string, destination: string, startDate: int, endDate: int, createdAt: int): (t: Trip)
    ensures t.status == Planning && t.budget.None? && t.actualCost == 0 && t.travelersCount == 1
    ensures |title| <= 200 && |destination| <= 200 ==> ValidTrip(t)
  {
    Trip(id, None, title, destination, startDate, endDate, None, 0, DefaultStatus, 1, createdAt)
  }

  /** `duration_days`: both the first and the last day count. */
  function DurationDays(t: Trip): int
  {
    (t.endDate - t.startDate) + 1
  }

  /** The day numbers from `lo` to `hi`, both included. */
  function DayRange(lo: int, hi: int): (r: set<int>)
    ensures forall d :: d in r <==> lo <= d <= hi
    decreases hi - lo
  {
    if lo > hi then {} else DayRange(lo, hi - 1) + {hi}
  }

  /** The days a trip covers. */
  function Days(t: Trip): set<int>
  {
    DayRange(t.startDate, t.endDate)
  }

  lemma {:induction false} DayRangeSize(lo: int, hi: int)
    requires lo <= hi + 1
    ensures |DayRange(lo, hi)| == hi - lo + 1
    decreases hi - lo
  {
    if lo <= hi {
      DayRangeSize(lo, hi - 1);
    }
  }

  /** For a trip that does not end before it starts, `duration_days` is the
      number of calendar days it covers; a same-day trip lasts one day. */
  lemma DurationCountsDays(t: Trip)
    requires t.startDate <= t.endDate
    ensures DurationDays(t) == |Days(t)|
    ensures t.startDate == t.endDate ==> DurationDays(t) == 1
  {
    DayRangeSize(t.startDate, t.endDate);
  }

  /** Nothing keeps a trip from ending before it starts; such a trip covers
      no day and its `duration_days` is zero or negative. */
  lemma ReversedTripDuration(t: Trip)
    requires t.endDate < t.startDate
    ensures DurationDays(t) <= 0 && |Days(t)| == 0
  {
    assert Days(t) == {};
  }

  /** `budget_remaining`: absent when the budget is null or zero. */
  function BudgetRemaining(t: Trip): (r: Option<int>)
    ensures r.None? <==> t.budget.None? || t.budget.value == 0
    ensures r.Some? ==> r.value + t.actualCost == t.budget.value
    ensures r.Some? && ValidTrip(t) ==> r.value <= t.budget.value
  {
    if t.budget.Some? && t.budget.value != 0 then Some(t.budget.value - t.actualCost) else None
  }

  datatype ActivityCategory = Sightseeing | Food | Adventure | Relaxation | Shopping | Entertainment | Transport | Accommodation | Other

  datatype Activity = Activity(
    id: int,
    trip: int,
    name: string,
    category: ActivityCategory,
    date: int,
    time: Option<int>,
    cost: Option<int>,
    completed: bool,
    rating: Option<int>,
    createdAt: int,
    updatedAt: int)

  predicate ValidActivity(a: Activity)
  {
    && |a.name| <= 200
    && (a.cost.Some? ==> 0 <= a.cost.value && DecimalInRange(a.cost.value))
    && (a.rating.Some? ==> a.rating.value >= 1)
  }

  /** An activity as created with only the required fields given. */
  function NewActivity(id: int, trip: int, name: string, date: int, createdAt: int): (a: Activity)
    ensures !a.completed && a.category == Other && a.cost.None? && a.rating.None?
    ensures a.createdAt == createdAt && a.updatedAt == createdAt
    ensures |name| <= 200 ==> ValidActivity(a)
  {
    Activity(id, trip, name, Other, date, None, None, false, None, createdAt, createdAt)
  }

  datatype ExpenseCategory = AccommodationCost | FoodCost | TransportCost | ActivitiesCost | ShoppingCost | OtherCost

  datatype Expense = Expense(
    id: int,
    trip: int,
    activity: Option<int>,
    description: string,
    amount: int,
    category: ExpenseCategory,
    date: int,
    currency: string)

  predicate ValidExpense(e: Expense)
  {
    |e.description| <= 200 && 0 <= e.amount && DecimalInRange(e.amount) && |e.currency| <= 3
  }

  /** An expense as created; the currency defaults to `USD`. */
  function NewExpense(id: int, trip: int, description: string, amount: int, category: ExpenseCategory, date: int): (e: Expense)
    ensures e.currency == "USD" && e.activity.None?
    ensures |description| <= 200 && 0 <= amount < DecimalLimit ==> ValidExpense(e)
  {
    Expense(id, trip, None, description, amount, category, date, "USD")
  }

  datatype ChecklistItem = ChecklistItem(
    id: int,
    trip: int,
    item: string,
    completed: bool,
    category: string,
    priority: int,
    createdAt: int)

  /** A checklist item as created: not done, priority 0, category `general`. */
  function NewChecklistItem(id: int, trip: int, item: string, createdAt: int): (c: ChecklistItem)
    ensures !c.completed && c.priority == 0 && c.category == "general"
  {
    ChecklistItem(id, trip, item, false, "general", 0, createdAt)
  }

  // ------------------------------------------------------------ default orderings

  /** `ordering = ['-priority', 'completed', 'created_at']`. */
  predicate ChecklistBefore(a: ChecklistItem, b: ChecklistItem)
  {
    a.priority > b.priority
    || (a.priority == b.priority && !a.completed && b.completed)
    || (a.priority == b.priority && a.completed == b.completed && a.createdAt <= b.createdAt)
  }

  /** A missing time sorts first (the SQLite convention for NULLs ascending). */
  predicate TimeBefore(a: Option<int>, b: Option<int>)
  {
    a.None? || (b.Some? && a.value <= b.value)
  }

  /** `ordering = ['date', 'time']`. */
  predicate ActivityBefore(a: Activity, b: Activity)
  {
    a.date < b.date || (a.date == b.date && TimeBefore(a.time, b.time))
  }

  /** `ordering = ['-date']`. */
  predicate ExpenseBefore(a: Expense, b: Expense)
  {
    a.date >= b.date
  }

  /** `ordering = ['-created_at']`. */
  predicate TripBefore(a: Trip, b: Trip)
  {
    a.createdAt >= b.createdAt
  }

  /** Each ordering is total and transitive, so it sorts any set of rows. */
  lemma ChecklistOrderIsTotalPreorder(a: ChecklistItem, b: ChecklistItem, c: ChecklistItem)
    ensures ChecklistBefore(a, b) || ChecklistBefore(b, a)
    ensures ChecklistBefore(a, b) && ChecklistBefore(b, c) ==> ChecklistBefore(a, c)
  {
  }

  lemma ActivityOrderIsTotalPreorder(a: Activity, b: Activity, c: Activity)
    ensures ActivityBefore(a, b) || ActivityBefore(b, a)
    ensures ActivityBefore(a, b) && ActivityBefore(b, c) ==> ActivityBefore(a, c)
  {
  }

  lemma ExpenseOrderIsTotalPreorder(e1: Expense, e2: Expense, e3: Expense)
    ensures ExpenseBefore(e1, e2) || ExpenseBefore(e2, e1)
    ensures ExpenseBefore(e1, e2) && ExpenseBefore(e2, e3) ==> ExpenseBefore(e1, e3)
    ensures ExpenseBefore(e1, e2) && !ExpenseBefore(e2, e1) <==> e1.date > e2.date
  {
  }

  lemma TripOrderIsTotalPreorder(t1: Trip, t2: Trip, t3: Trip)
    ensures TripBefore(t1, t2) || TripBefore(t2, t1)
    ensures TripBefore(t1, t2) && TripBefore(t2, t3) ==> TripBefore(t1, t3)
    ensures TripBefore(t1, t2) && !TripBefore(t2, t1) <==> t1.createdAt > t2.createdAt
  {
  }

  /** In checklist order, of two items with the same priority the pending one
      comes first, and a higher priority always comes first. */
  lemma ChecklistOrderKeys(a: ChecklistItem, b: ChecklistItem)
    ensures a.priority > b.priority ==> ChecklistBefore(a, b) && !ChecklistBefore(b, a)
    ensures a.priority == b.priority && !a.completed && b.completed ==> ChecklistBefore(a, b) && !ChecklistBefore(b, a)
  {
  }

  /** A sequence of rows in the order `before` prescribes. */
  predicate SortedBy<T>(xs: seq<T>, before: (T, T) -> bool)
  {
    forall i, j :: 0 <= i < j < |xs| ==> before(xs[i], xs[j])
  }

  /** A checklist in default order lists all items of the highest priority first. */
  lemma SortedChecklistPriorityDescends(xs: seq<ChecklistItem>, i: int, j: int)
    requires SortedBy(xs, ChecklistBefore)
    requires 0 <= i < j < |xs|
    ensures xs[i].priority >= xs[j].priority
  {
    assert ChecklistBefore(xs[i], xs[j]);
  }

  /** The `actual_cost` column of some trips. */
  function ActualCosts(trips: seq<Trip>): (r: seq<int>)
    ensures |r| == |trips| && forall i :: 0 <= i < |r| ==> r[i] == trips[i].actualCost
  {
    if trips == [] then [] else [trips[0].actualCost] + ActualCosts(trips[1..])
  }

  /** The nullable `budget` column of some trips. */
  function Budgets(trips: seq<Trip>): (r: seq<Option<int>>)
    ensures |r| == |trips| && forall i :: 0 <= i < |r| ==> r[i] == trips[i].budget
  {
    if trips == [] then [] else [trips[0].budget] + Budgets(trips[1..])
  }
}

=== FILE: src/trip_views.dfy ===
/** The trip endpoints: the serializer choice, the completion toggles of
    activities and checklist items, and the per-trip statistics and dashboard
    aggregates (backend/trips/views.py). */
module TripViews {
  import opened Base
  import opened TripModels

  datatype SerializerKind = TripListSerializer | TripSerializer

  /** `get_serializer_class`. */
  function SerializerFor(action: string): (k: SerializerKind)
    ensures k == TripListSerializer <==> action == "list"
  {
    if action == "list" then TripListSerializer else TripSerializer
  }

  /** A stored activity; `ToggleComplete` is the `toggle_complete` action,
      whose save stamps `updated_at` with the time `now` of the request. */
  class ActivityRow {
    var record: Activity

    constructor (record: Activity)
      ensures this.record == record
    {
      this.record := record;
    }

    method ToggleComplete(now: int) returns (completed: bool)
      modifies this
      ensures record == old(record).(completed := !old(record).completed, updatedAt := now)
      ensures completed == record.completed
    {
      record := record.(completed := !record.completed, updatedAt := now);
      completed := record.completed;
    }
  }

  /** A stored checklist item; `Toggle` is the checklist `toggle` action. */
  class ChecklistRow {
    var record: ChecklistItem

    constructor (record: ChecklistItem)
      ensures this.record == record
    {
      this.record := record;
    }

    method Toggle() returns (completed: bool)
      modifies this
      ensures record == old(record).(completed := !old(record).completed)
      ensures completed == record.completed
    {
      record := record.(completed := !record.completed);
      completed := record.completed;
    }
  }

  /** Two toggles of an activity give back the activity it was, except for
      `updated_at`, which holds the time of the second save. */
  method ToggleCompleteTwice(row: ActivityRow, now1: int, now2: int) returns (first: bool, second: bool)
    modifies row
    ensures row.record == old(row.record).(updatedAt := now2)
    ensures first == !old(row.record.completed) && second == old(row.record.completed)
  {
    first := row.ToggleComplete(now1);
    second := row.ToggleComplete(now2);
  }

  /** Two toggles of a checklist item give back the item it was. */
  method ToggleChecklistTwice(row: ChecklistRow) returns (first: bool, second: bool)
    modifies row
    ensures row.record == old(row.record)
    ensures first == !old(row.record.completed) && second == old(row.record.completed)
  {
    first := row.Toggle();
    second := row.Toggle();
  }

  // ------------------------------------------------------------ statistics

  datatype BudgetStatus = BudgetStatus(budget: int, spent: int, remaining: int)

  datatype Statistics = Statistics(
    totalActivities: nat,
    completedActivities: nat,
    totalExpenses: int,
    checklistTotal: nat,
    checklistCompleted: nat,
    budgetStatus: BudgetStatus)

  predicate ActivityDone(a: Activity)
  {
    a.completed
  }

  predicate ItemDone(c: ChecklistItem)
  {
    c.completed
  }

  function Amounts(expenses: seq<Expense>): (r: seq<int>)
    ensures |r| == |expenses| && forall i :: 0 <= i < |r| ==> r[i] == expenses[i].amount
  {
    if expenses == [] then [] else [expenses[0].amount] + Amounts(expenses[1..])
  }

  lemma ValidAmountsAddUp(expenses: seq<Expense>)
    ensures (forall i :: 0 <= i < |expenses| ==> ValidExpense(expenses[i])) ==> Sum(Amounts(expenses)) >= 0
  {
    if forall i :: 0 <= i < |expenses| ==> ValidExpense(expenses[i]) {
      SumNonNegative(Amounts(expenses));
    }
  }

  /** The `budget_status` block. */
  function BudgetStatusOf(t: Trip): (b: BudgetStatus)
    ensures b.spent == t.actualCost
    ensures t.budget.None? || t.budget.value == 0 ==> b.budget == 0 && b.remaining == 0
    ensures t.budget.Some? && t.budget.value != 0 ==> b.budget == t.budget.value && b.remaining == b.budget - b.spent
  {
    var remaining := BudgetRemaining(t);
    BudgetStatus(
      if t.budget.Some? && t.budget.value != 0 then t.budget.value else 0,
      t.actualCost,
      if remaining.Some? && remaining.value != 0 then remaining.value else 0)
  }

  /** The `statistics` action over one trip's activities, expenses and
      checklist items. */
  function TripStatistics(t: Trip, activities: seq<Activity>, expenses: seq<Expense>, checklist: seq<ChecklistItem>): (s: Statistics)
    ensures s.totalActivities == |activities| && s.completedActivities == Count(activities, ActivityDone)
    ensures s.completedActivities <= s.totalActivities
    ensures s.checklistTotal == |checklist| && s.checklistCompleted == Count(checklist, ItemDone)
    ensures s.checklistCompleted <= s.checklistTotal
    ensures expenses == [] ==> s.totalExpenses == 0
    ensures expenses != [] ==> s.totalExpenses == Sum(Amounts(expenses))
    ensures (forall i :: 0 <= i < |expenses| ==> ValidExpense(expenses[i])) ==> s.totalExpenses >= 0
    ensures s.budgetStatus == BudgetStatusOf(t)
  {
    var total := OrZero(SumColumn(Amounts(expenses)));
    ValidAmountsAddUp(expenses);
    Statistics(
      |activities|,
      Count(activities, ActivityDone),
      total,
      |checklist|,
      Count(checklist, ItemDone),
      BudgetStatusOf(t))
  }

  // ------------------------------------------------------------ dashboard

  function HasStatus(s: Status): Trip -> bool
  {
    (t: Trip) => t.status == s
  }

  datatype Dashboard = Dashboard(totalTrips: nat, upcomingTrips: nat, ongoingTrips: nat, completedTrips: nat, recentTrips: seq<Trip>)

  /** The `dashboard` action over the trips of the queryset, in its default
      newest-first order. */
  function DashboardOf(trips: seq<Trip>): (d: Dashboard)
    ensures d.totalTrips == |trips|
    ensures d.upcomingTrips == Count(trips, HasStatus(Upcoming))
    ensures d.ongoingTrips == Count(trips, HasStatus(Ongoing))
    ensures d.completedTrips == Count(trips, HasStatus(Completed))
    ensures d.upcomingTrips + d.ongoingTrips + d.completedTrips <= d.totalTrips
    ensures |d.recentTrips| <= 5 && |d.recentTrips| <= |trips| && d.recentTrips == trips[..|d.recentTrips|]
    ensures |trips| >= 5 ==> |d.recentTrips| == 5
  {
    CountDisjoint3(trips, HasStatus(Upcoming), HasStatus(Ongoing), HasStatus(Completed));
    Dashboard(
      |trips|,
      Count(trips, HasStatus(Upcoming)),
      Count(trips, HasStatus(Ongoing)),
      Count(trips, HasStatus(Completed)),
      Take(trips, 5))
  }

  /** When the trips are in the default order, the recent trips are the newest. */
  lemma RecentTripsAreNewest(trips: seq<Trip>, i: int, j: int)
    requires SortedBy(trips, TripBefore)
    requires 0 <= i < |DashboardOf(trips).recentTrips| <= j < |trips|
    ensures DashboardOf(trips).recentTrips[i].createdAt >= trips[j].createdAt
  {
    assert DashboardOf(trips).recentTrips[i] == trips[i];
    assert TripBefore(trips[i], trips[j]);
  }
}

=== FILE: src/user_serializers.dfy ===
/** The account serializers: password field rules, registration and login
    validation, and the per-user expense total (backend/users/serializers.py).
    The account store is given as a map from user name to account. */
module UserSerializers {
  import opened Base
  import opened TripModels

  /** A stored account. `password` stands for the stored credential;
      `check_password` is modelled as equality with it. `createdAt` is a
      timestamp in seconds. */
  datatype Account = Account(
    id: int,
    username: string,
    email: string,
    firstName: string,
    lastName: string,
    role: string,
    isActive: bool,
    password: string,
    createdAt: int)

  const PasswordMinLength: nat := 6

  const RequiredMessage := "This field is required."
  const BlankMessage := "This field may not be blank."
  const TooShortMessage := "Ensure this field has at least 6 characters."
  const MismatchMessage := "Passwords don't match"

  /** The errors of one `CharField(min_length=6)`: missing, blank, too short. */
  function PasswordFieldErrors(value: Option<string>): (errs: seq<string>)
    ensures errs == [] <==> value.Some? && |value.value| >= PasswordMinLength
    ensures |errs| <= 1
    ensures value.Some? && 0 < |value.value| < PasswordMinLength ==> errs == [TooShortMessage]
  {
    match value
    case None => [RequiredMessage]
    case Some(v) =>
      if v == "" then [BlankMessage]
      else if |v| < PasswordMinLength then [TooShortMessage]
      else []
  }

  /** The error of one plain required `CharField`: missing or blank. */
  function RequiredFieldErrors(value: Option<string>): (errs: seq<string>)
    ensures errs == [] <==> Truthy(value)
  {
    match value
    case None => [RequiredMessage]
    case Some(v) => if v == "" then [BlankMessage] else []
  }

  function FieldError(name: string, errs: seq<string>): seq<(string, seq<string>)>
  {
    if errs == [] then [] else [(name, errs)]
  }

  /** `RegisterSerializer` validation of the two password fields: the field
      rules first, and only when both pass, `validate`'s equality check. */
  function RegisterPasswordErrors(password: Option<string>, password2: Option<string>): (errors: seq<(string, seq<string>)>)
    ensures errors == [] <==>
      && password.Some? && password2.Some?
      && |password.value| >= PasswordMinLength
      && password.value == password2.value
    ensures (PasswordFieldErrors(password) == [] && PasswordFieldErrors(password2) == []
             && password.value != password2.value) ==> errors == [("password", [MismatchMessage])]
    ensures PasswordFieldErrors(password) != [] ==> errors[0] == ("password", PasswordFieldErrors(password))
    ensures forall i :: 0 <= i < |errors| ==> errors[i].0 in {"password", "password2"}
  {
    var fieldErrors := FieldError("password", PasswordFieldErrors(password)) + FieldError("password2", PasswordFieldErrors(password2));
    if fieldErrors != [] then fieldErrors
    else if password.value != password2.value then [("password", [MismatchMessage])]
    else []
  }

  /** A length or presence problem is reported instead of a mismatch. */
  lemma FieldRulesComeFirst(password: Option<string>, password2: Option<string>)
    requires PasswordFieldErrors(password) != [] || PasswordFieldErrors(password2) != []
    ensures forall i :: 0 <= i < |RegisterPasswordErrors(password, password2)| ==>
              RegisterPasswordErrors(password, password2)[i].1 != [MismatchMessage]
  {
  }

  /** `RegisterSerializer.create`: the arguments given to `create_user` are
      the validated data without `password2`. */
  method RegisterCreateArguments(validatedData: map<string, string>) returns (createArgs: map<string, string>)
    requires "password2" in validatedData
    ensures "password2" !in createArgs
    ensures validatedData.Keys == createArgs.Keys + {"password2"}
    ensures forall k :: k in createArgs ==> createArgs[k] == validatedData[k]
  {
    var data := validatedData;
    data := data - {"password2"};
    createArgs := data;
  }

  /** `UserCreateSerializer` (the admin create form): its only own rule is the
      same password field. */
  function UserCreatePasswordErrors(password: Option<string>): (errors: seq<(string, seq<string>)>)
    ensures errors == [] <==> password.Some? && |password.value| >= PasswordMinLength
  {
    FieldError("password", PasswordFieldErrors(password))
  }

  // ------------------------------------------------------------------ login

  datatype LoginAttrs = LoginAttrs(username: Option<string>, password: Option<string>)

  datatype UserSummary = UserSummary(id: int, username: string, email: string, firstName: string, lastName: string, role: string)

  /** Tokens minted by `RefreshToken.for_user`, given as a parameter. */
  datatype TokenPair = TokenPair(refresh: string, access: string)

  datatype LoginPayload = LoginPayload(refresh: string, access: string, user: UserSummary)

  const RequiredDetail := "Username and password are required"
  const InvalidDetail := "Invalid username or password"
  const DisabledDetail := "User account is disabled"

  function Summary(a: Account): UserSummary
  {
    UserSummary(a.id, a.username, a.email, a.firstName, a.lastName, a.role)
  }

  /** `CustomTokenObtainPairSerializer.validate`: required, known, active,
      correct password, in that order; on success the tokens and the user. */
  function ValidateLogin(attrs: LoginAttrs, accounts: map<string, Account>, tokens: TokenPair): (r: Result<LoginPayload, string>)
    ensures r.Ok? <==>
      && Truthy(attrs.username) && Truthy(attrs.password)
      && attrs.username.value in accounts
      && accounts[attrs.username.value].isActive
      && accounts[attrs.username.value].password == attrs.password.value
    ensures r.Ok? ==>
      r.value == LoginPayload(tokens.refresh, tokens.access, Summary(accounts[attrs.username.value]))
    ensures r.Err? ==> r.error in {RequiredDetail, InvalidDetail, DisabledDetail}
    ensures r == Err(RequiredDetail) <==> !Truthy(attrs.username) || !Truthy(attrs.password)
    ensures r == Err(DisabledDetail) <==>
      && Truthy(attrs.username) && Truthy(attrs.password)
      && attrs.username.value in accounts && !accounts[attrs.username.value].isActive
  {
    if !Truthy(attrs.username) || !Truthy(attrs.password) then Err(RequiredDetail)
    else if attrs.username.value !in accounts then Err(InvalidDetail)
    else
      var user := accounts[attrs.username.value];
      if !user.isActive then Err(DisabledDetail)
      else if user.password != attrs.password.value then Err(InvalidDetail)
      else Ok(LoginPayload(tokens.refresh, tokens.access, Summary(user)))
  }

  /** An unknown user and a wrong password get the same answer. */
  lemma UnknownUserLooksLikeWrongPassword(attrs: LoginAttrs, accounts: map<string, Account>, tokens: TokenPair)
    requires Truthy(attrs.username) && Truthy(attrs.password)
    requires attrs.username.value !in accounts
             || (accounts[attrs.username.value].isActive && accounts[attrs.username.value].password != attrs.password.value)
    ensures ValidateLogin(attrs, accounts, tokens) == Err(InvalidDetail)
  {
  }

  /** A disabled account is reported before, and whatever, the password. */
  lemma DisabledIgnoresPassword(username: string, p1: string, p2: string, accounts: map<string, Account>, tokens: TokenPair)
    requires username != "" && p1 != "" && p2 != ""
    requires username in accounts && !accounts[username].isActive
    ensures ValidateLogin(LoginAttrs(Some(username), Some(p1)), accounts, tokens)
         == ValidateLogin(LoginAttrs(Some(username), Some(p2)), accounts, tokens)
  {
  }

  /** `is_valid` on the login serializer: the two required fields first, then
      `validate`, whose error is keyed `detail`. */
  function LoginIsValid(attrs: LoginAttrs, accounts: map<string, Account>, tokens: TokenPair): (r: Result<LoginPayload, seq<(string, seq<string>)>>)
    ensures r.Ok? <==> ValidateLogin(attrs, accounts, tokens).Ok?
    ensures r.Ok? ==> r.value == ValidateLogin(attrs, accounts, tokens).value
    ensures r.Err? ==> r.error != []
  {
    var fieldErrors := FieldError("username", RequiredFieldErrors(attrs.username)) + FieldError("password", RequiredFieldErrors(attrs.password));
    if fieldErrors != [] then Err(fieldErrors)
    else
      match ValidateLogin(attrs, accounts, tokens)
      case Ok(payload) => Ok(payload)
      case Err(detail) => Err([("detail", [detail])])
  }

  /** The required-fields branch of `validate` is never reached through
      `is_valid`: the field rules have already rejected such a request. */
  lemma RequiredDetailIsUnreachable(attrs: LoginAttrs, accounts: map<string, Account>, tokens: TokenPair)
    ensures LoginIsValid(attrs, accounts, tokens) != Err([("detail", [RequiredDetail])])
  {
    if RequiredFieldErrors(attrs.username) == [] && RequiredFieldErrors(attrs.password) == [] {
      assert ValidateLogin(attrs, accounts, tokens) != Err(RequiredDetail);
    } else {
      var fieldErrors := FieldError("username", RequiredFieldErrors(attrs.username)) + FieldError("password", RequiredFieldErrors(attrs.password));
      assert fieldErrors[0].0 in {"username", "password"};
    }
  }

  /** `get_total_expenses`: the sum of the user's trips' actual costs, 0 when
      the sum is NULL or zero. */
  function TotalExpenses(trips: seq<Trip>): (total: int)
    ensures trips == [] ==> total == 0
    ensures trips != [] ==> total == Sum(ActualCosts(trips))
    ensures (forall i :: 0 <= i < |trips| ==> ValidTrip(trips[i])) ==> total >= 0
  {
    ValidCostsAddUp(trips);
    OrZero(SumColumn(ActualCosts(trips)))
  }

  lemma ValidCostsAddUp(trips: seq<Trip>)
    ensures (forall i :: 0 <= i < |trips| ==> ValidTrip(trips[i])) ==> Sum(ActualCosts(trips)) >= 0
  {
    if forall i :: 0 <= i < |trips| ==> ValidTrip(trips[i]) {
      SumNonNegative(ActualCosts(trips));
    }
  }
}

=== FILE: src/user_views.dfy ===
/** The account endpoints: the two permission classes, the user-management
    actions and the two dashboards (backend/users/views.py). Querysets are given
    in the order the source asks of them (newest first where it orders by
    `-created_at`); the current time is a parameter. */
module UserViews {
  import opened Base
  import opened TripModels
  import opened UserSerializers
  import TripViews

  /** `request.user`: anonymous, or an authenticated account with its role. */
  datatype Requester = Anonymous | Authenticated(id: int, role: string)

  const Roles: set<string> := {"user", "admin", "superadmin"}

  /** `IsAdminUser.has_permission`. */
  predicate IsAdminUser(u: Requester)
  {
    u.Authenticated? && (u.role == "admin" || u.role == "superadmin")
  }

  /** `IsSuperAdmin.has_permission`. */
  predicate IsSuperAdmin(u: Requester)
  {
    u.Authenticated? && u.role == "superadmin"
  }

  lemma SuperAdminIsAdmin(u: Requester)
    ensures IsSuperAdmin(u) ==> IsAdminUser(u)
    ensures IsAdminUser(u) && !IsSuperAdmin(u) <==> u.Authenticated? && u.role == "admin"
  {
  }

  /** The permission classes ahead of an action, `IsAuthenticated` first: the
      status code of the refusal, if any. */
  function Refusal(u: Requester, superAdminOnly: bool): (code: Option<int>)
    ensures code.None? <==> (if superAdminOnly then IsSuperAdmin(u) else IsAdminUser(u))
    ensures u.Anonymous? ==> code == Some(401)
    ensures u.Authenticated? && code.Some? ==> code == Some(403)
  {
    if u.Anonymous? then Some(401)
    else if superAdminOnly && !IsSuperAdmin(u) then Some(403)
    else if !superAdminOnly && !IsAdminUser(u) then Some(403)
    else None
  }

  /** The accounts a requester of role `role` may manage. */
  function Manageable(role: string): Account -> bool
  {
    (a: Account) => role == "superadmin" || (role == "admin" && a.role == "user")
  }

  /** `get_queryset` over all accounts, newest first. */
  function VisibleAccounts(role: string, accounts: seq<Account>): (r: seq<Account>)
    ensures role == "superadmin" ==> r == accounts
    ensures role != "superadmin" && role != "admin" ==> r == []
    ensures role == "admin" ==>
      && (forall i :: 0 <= i < |r| ==> r[i] in accounts && r[i].role == "user")
      && (forall i :: 0 <= i < |accounts| && accounts[i].role == "user" ==> accounts[i] in r)
    ensures IsSubsequence(r, accounts)
    ensures role == "admin" ==> forall a :: multiset(r)[a] == (if a.role == "user" then multiset(accounts)[a] else 0)
  {
    SuperAdminSeesAll(accounts);
    FilterMultiplicity(accounts, Manageable(role));
    Filter(accounts, Manageable(role))
  }

  lemma SuperAdminSeesAll(accounts: seq<Account>)
    ensures Filter(accounts, Manageable("superadmin")) == accounts
  {
    FilterKeepsAll(accounts, Manageable("superadmin"));
  }

  /** The account row `get_object` found; the actions save it in place. */
  class AccountRow {
    var account: Account

    constructor (account: Account)
      ensures this.account == account
    {
      this.account := account;
    }
  }

  /** `change_role`: super administrators only; a role outside the three
      choices is refused with 400 and nothing changes. */
  method ChangeRole(u: Requester, row: AccountRow, newRole: Option<string>) returns (status: int)
    modifies row
    ensures Refusal(u, true).Some? ==> status == Refusal(u, true).value && row.account == old(row.account)
    ensures Refusal(u, true).None? && !(newRole.Some? && newRole.value in Roles) ==>
      status == 400 && row.account == old(row.account)
    ensures Refusal(u, true).None? && newRole.Some? && newRole.value in Roles ==>
      status == 200 && row.account == old(row.account).(role := newRole.value)
  {
    var refusal := Refusal(u, true);
    if refusal.Some? {
      return refusal.value;
    }
    if !(newRole.Some? && newRole.value in Roles) {
      return 400;
    }
    row.account := row.account.(role := newRole.value);
    status := 200;
  }

  /** `toggle_active`: administrators only, on an account they may manage
      (404 otherwise); answers the new flag. */
  method ToggleActive(u: Requester, row: AccountRow) returns (status: int, isActive: Option<bool>)
    modifies row
    ensures Refusal(u, false).Some? ==>
      status == Refusal(u, false).value && isActive.None? && row.account == old(row.account)
    ensures Refusal(u, false).None? && !Manageable(u.role)(old(row.account)) ==>
      status == 404 && isActive.None? && row.account == old(row.account)
    ensures Refusal(u, false).None? && Manageable(u.role)(old(row.account)) ==>
      && status == 200
      && row.account == old(row.account).(isActive := !old(row.account).isActive)
      && isActive == Some(row.account.isActive)
  {
    var refusal := Refusal(u, false);
    if refusal.Some? {
      return refusal.value, None;
    }
    if !Manageable(u.role)(row.account) {
      return 404, None;
    }
    row.account := row.account.(isActive := !row.account.isActive);
    status, isActive := 200, Some(row.account.isActive);
  }

  /** Toggling an account twice gives back the account it was. */
  method ToggleActiveTwice(u: Requester, row: AccountRow) returns (first: Option<bool>, second: Option<bool>)
    requires IsAdminUser(u) && Manageable(u.role)(row.account)
    modifies row
    ensures row.account == old(row.account)
    ensures first == Some(!old(row.account.isActive)) && second == Some(old(row.account.isActive))
  {
    var status;
    status, first := ToggleActive(u, row);
    status, second := ToggleActive(u, row);
  }

  function InStatus(statuses: set<Status>): Trip -> bool
  {
    (t: Trip) => t.status in statuses
  }

  /** The five status counts of some trips add up to the number of trips. */
  lemma {:induction false} StatusCountsPartition(trips: seq<Trip>)
    ensures Count(trips, TripViews.HasStatus(Planning)) + Count(trips, TripViews.HasStatus(Upcoming))
          + Count(trips, TripViews.HasStatus(Ongoing)) + Count(trips, TripViews.HasStatus(Completed))
          + Count(trips, TripViews.HasStatus(Cancelled)) == |trips|
  {
    if trips != [] {
      StatusCountsPartition(trips[1..]);
      CountUnfold(trips, TripViews.HasStatus(Planning));
      CountUnfold(trips, TripViews.HasStatus(Upcoming));
      CountUnfold(trips, TripViews.HasStatus(Ongoing));
      CountUnfold(trips, TripViews.HasStatus(Completed));
      CountUnfold(trips, TripViews.HasStatus(Cancelled));
    }
  }

  /** Trips in progress: upcoming or ongoing. */
  function ActiveTrips(trips: seq<Trip>): (n: nat)
    ensures n == Count(trips, TripViews.HasStatus(Upcoming)) + Count(trips, TripViews.HasStatus(Ongoing))
    ensures n <= |trips|
  {
    CountEither(trips, TripViews.HasStatus(Upcoming), TripViews.HasStatus(Ongoing), InStatus({Upcoming, Ongoing}));
    CountSplit(trips, InStatus({Upcoming, Ongoing}), InStatus({Planning, Completed, Cancelled}));
    Count(trips, InStatus({Upcoming, Ongoing}))
  }

  datatype ActivityLog = ActivityLog(recentTrips: seq<Trip>, totalTrips: nat, activeTrips: nat)

  /** `activity_log` for an account whose trips are given newest first. */
  function ActivityLogOf(u: Requester, target: Account, trips: seq<Trip>): (r: Result<ActivityLog, int>)
    ensures Refusal(u, false).Some? ==> r == Err(Refusal(u, false).value)
    ensures Refusal(u, false).None? && !Manageable(u.role)(target) ==> r == Err(404)
    ensures r.Ok? <==> IsAdminUser(u) && Manageable(u.role)(target)
    ensures r.Ok? ==>
      && |r.value.recentTrips| <= 10 && |r.value.recentTrips| <= |trips|
      && r.value.recentTrips == trips[..|r.value.recentTrips|]
      && (|trips| >= 10 ==> |r.value.recentTrips| == 10)
      && r.value.totalTrips == |trips|
      && r.value.activeTrips == ActiveTrips(trips)
      && r.value.activeTrips <= r.value.totalTrips
  {
    var refusal := Refusal(u, false);
    if refusal.Some? then Err(refusal.value)
    else if !Manageable(u.role)(target) then Err(404)
    else Ok(ActivityLog(Take(trips, 10), |trips|, ActiveTrips(trips)))
  }

  datatype PersonalStats = PersonalStats(
    totalTrips: nat, upcomingTrips: nat, ongoingTrips: nat, completedTrips: nat,
    totalExpenses: int, totalBudget: int, recentTrips: seq<Trip>)

  /** `UserDashboardView` over the requester's own trips, newest first:
      administrators are turned away with 403. */
  function UserDashboard(u: Requester, trips: seq<Trip>): (r: Result<PersonalStats, int>)
    ensures u.Anonymous? ==> r == Err(401)
    ensures u.Authenticated? && (u.role == "admin" || u.role == "superadmin") ==> r == Err(403)
    ensures r.Ok? <==> u.Authenticated? && !IsAdminUser(u)
    ensures r.Ok? ==>
      && r.value.totalTrips == |trips|
      && r.value.upcomingTrips == Count(trips, TripViews.HasStatus(Upcoming))
      && r.value.ongoingTrips == Count(trips, TripViews.HasStatus(Ongoing))
      && r.value.completedTrips == Count(trips, TripViews.HasStatus(Completed))
      && r.value.upcomingTrips + r.value.ongoingTrips + r.value.completedTrips <= r.value.totalTrips
      && r.value.totalExpenses == TotalExpenses(trips)
      && r.value.totalBudget == TotalBudget(trips)
      && (trips == [] ==> r.value.totalExpenses == 0 && r.value.totalBudget == 0)
      && |r.value.recentTrips| <= 5 && |r.value.recentTrips| <= |trips|
      && r.value.recentTrips == trips[..|r.value.recentTrips|]
      && (|trips| >= 5 ==> |r.value.recentTrips| == 5)
  {
    if u.Anonymous? then Err(401)
    else if u.role == "admin" || u.role == "superadmin" then Err(403)
    else
      var d := TripViews.DashboardOf(trips);
      Ok(PersonalStats(
        d.totalTrips, d.upcomingTrips, d.ongoingTrips, d.completedTrips,
        TotalExpenses(trips),
        TotalBudget(trips),
        d.recentTrips))
  }

  /** `Sum('budget')` over some trips, `or 0`: trips without a budget add
      nothing. */
  function TotalBudget(trips: seq<Trip>): (total: int)
    ensures (forall i :: 0 <= i < |trips| ==> trips[i].budget.None?) ==> total == 0
    ensures total == Sum(NullAsZero(Budgets(trips)))
  {
    OrZero(SumNonNull(Budgets(trips)))
  }

  /** Thirty days, in seconds. */
  const ThirtyDays: int := 30 * 24 * 60 * 60

  datatype TripsByStatus = TripsByStatus(planning: nat, upcoming: nat, ongoing: nat, completed: nat, cancelled: nat)

  datatype UsersByRole = UsersByRole(superadmin: nat, admin: nat, user: nat)

  datatype SystemStats = SystemStats(
    totalUsers: nat, activeUsers: nat, totalTrips: nat, activeTrips: nat,
    totalBudget: int, totalExpenses: int, newUsersMonth: nat, newTripsMonth: nat,
    usersByRole: UsersByRole, tripsByStatus: TripsByStatus,
    recentUsers: seq<Account>, recentTrips: seq<Trip>)

  function HasRole(role: string): Account -> bool
  {
    (a: Account) => a.role == role
  }

  function IsActiveAccount(a: Account): bool
  {
    a.isActive
  }

  function CreatedSince(since: int): Trip -> bool
  {
    (t: Trip) => t.createdAt >= since
  }

  function JoinedSince(since: int): Account -> bool
  {
    (a: Account) => a.createdAt >= since
  }

  /** `AdminDashboardView` over all accounts and all trips, each newest first,
      at time `now`. */
  function AdminDashboard(u: Requester, accounts: seq<Account>, trips: seq<Trip>, now: int): (r: Result<SystemStats, int>)
    ensures Refusal(u, false).Some? ==> r == Err(Refusal(u, false).value)
    ensures r.Ok? <==> IsAdminUser(u)
    ensures r.Ok? ==>
      && r.value.totalUsers == |accounts| && r.value.activeUsers == Count(accounts, IsActiveAccount)
      && r.value.activeUsers <= r.value.totalUsers
      && r.value.totalTrips == |trips|
      && r.value.tripsByStatus.planning == Count(trips, TripViews.HasStatus(Planning))
      && r.value.tripsByStatus.upcoming == Count(trips, TripViews.HasStatus(Upcoming))
      && r.value.tripsByStatus.ongoing == Count(trips, TripViews.HasStatus(Ongoing))
      && r.value.tripsByStatus.completed == Count(trips, TripViews.HasStatus(Completed))
      && r.value.tripsByStatus.cancelled == Count(trips, TripViews.HasStatus(Cancelled))
      && r.value.activeTrips == ActiveTrips(trips)
      && r.value.activeTrips == r.value.tripsByStatus.upcoming + r.value.tripsByStatus.ongoing
      && r.value.tripsByStatus.planning + r.value.tripsByStatus.upcoming + r.value.tripsByStatus.ongoing
         + r.value.tripsByStatus.completed + r.value.tripsByStatus.cancelled == r.value.totalTrips
      && r.value.usersByRole.superadmin == Count(accounts, HasRole("superadmin"))
      && r.value.usersByRole.admin == Count(accounts, HasRole("admin"))
      && r.value.usersByRole.user == Count(accounts, HasRole("user"))
      && r.value.usersByRole.superadmin + r.value.usersByRole.admin + r.value.usersByRole.user <= r.value.totalUsers
      && r.value.totalBudget == TotalBudget(trips) && r.value.totalExpenses == TotalExpenses(trips)
      && (trips == [] ==> r.value.totalBudget == 0 && r.value.totalExpenses == 0)
      && r.value.newUsersMonth == Count(accounts, JoinedSince(now - ThirtyDays))
      && r.value.newTripsMonth == Count(trips, CreatedSince(now - ThirtyDays))
      && r.value.newUsersMonth <= r.value.totalUsers && r.value.newTripsMonth <= r.value.totalTrips
      && |r.value.recentUsers| <= 5 && |r.value.recentUsers| <= |accounts|
      && r.value.recentUsers == accounts[..|r.value.recentUsers|]
      && |r.value.recentTrips| <= 10 && |r.value.recentTrips| <= |trips|
      && r.value.recentTrips == trips[..|r.value.recentTrips|]
  {
    var refusal := Refusal(u, false);
    if refusal.Some? then Err(refusal.value)
    else
      var since := now - ThirtyDays;
      StatusCountsPartition(trips);
      CountDisjoint3(accounts, HasRole("superadmin"), HasRole("admin"), HasRole("user"));
      Ok(SystemStats(
        |accounts|,
        Count(accounts, IsActiveAccount),
        |trips|,
        ActiveTrips(trips),
        TotalBudget(trips),
        TotalExpenses(trips),
        Count(accounts, JoinedSince(since)),
        Count(trips, CreatedSince(since)),
        UsersByRole(Count(accounts, HasRole("superadmin")), Count(accounts, HasRole("admin")), Count(accounts, HasRole("user"))),
        TripsByStatus(
          Count(trips, TripViews.HasStatus(Planning)), Count(trips, TripViews.HasStatus(Upcoming)),
          Count(trips, TripViews.HasStatus(Ongoing)), Count(trips, TripViews.HasStatus(Completed)),
          Count(trips, TripViews.HasStatus(Cancelled))),
        Take(accounts, 5),
        Take(trips, 10)))
  }
}
